=== FILE: README.md ===
# Slack appender for logback, modelled in Dafny

The Slack appender is a logback appender. It forwards logging events at
or above a configured severity to a Slack incoming webhook.
Its behaviour is rate limited:

- The first accepted event goes out on its own POST.
- So does any accepted event that arrives more than `SEND_INTERVAL`
  (5000 ms) after the previous accepted one.
- Every other accepted event is queued.
- A single background thread (the drainer) wakes after one interval. It
  empties the queue in batches of at most `MAX_SEND_SIZE` (30) events,
  one POST per batch.
- Each POST body is JSON written by hand. Quotes inside the texts are
  escaped, and backslashes are not.

The model covers the appender's core:

- `base.dfy` (`Base`): Java's nullable strings as `Option<string>`. Null
  prints as `null`. Also a comma join with its splitter, and flattening of
  batch lists.
- `model.dfy` (`Model`): logback levels with their integer values and
  names, the colour table filled by `setLevelColor`, events, the four
  required settings, and the dispatch state. The state holds
  `LAST_SENT_TIMESTAMP`, `LINKED_QUE` and `IS_SEC_THREAD_RUN`.
- `encoder.dfy` (`Encoder`): `replaceQuoteStr`, `coverQuoteStr`,
  `toJsonString`, `toJsonArray`, `getPretext` and `makeSendText`.
  - Each is a function, and each has a partner: an unescaper for the
    escaping, and a parser for each JSON writer, with round-trip lemmas.
  - Both `StringBuffer` loops are methods proved equal to the functions.
- `dispatch.dfy` (`Dispatch`): `start()` with its error statuses, and
  `append()` as one atomic step under the lock. The step is the severity
  filter, the strict rate gate, then the immediate or the deferred path.
  Lemmas cover sequences of calls.
- `drainer.dfy` (`Drainer`): `MultiSenderRunner.run` without its sleeps.
  - It is written as the polling loop of the source, and proved equal to
    a reference definition, `Drain`. `Drain` cuts the queue into
    consecutive chunks of 30.
  - The network is a parameter: the index of the first POST that fails,
    if any. A failure ends the run. The batches attempted are exactly the
    queue's first chunks of 30. The events of the failing batch are
    already polled, so they are gone. Exactly the events after that batch
    stay queued. The flag is cleared on every path.
- `relay.dfy` (`Relay`): the whole appender as a transition system. Its
  steps are calls to `append()`, drainer wake-ups and interruptions of
  the drainer's first sleep or of a pause between its batches, interleaved in any order. Every POST is
  recorded on a wire, and the bodies the drainer loop sends are the
  rendered posts of the wire.
  - From `start()` on, two invariants hold. First, a drainer is alive
    exactly when the flag is set, so there is never more than one.
    Second, every deferred event is in exactly one attempted batch POST,
    in arrival order, or is still queued. This second invariant relies on
    rendering an event never throwing; see "Left out".
  - Each batch POST on the wire is marked delivered or failed. A drainer
    run marks only the POST with the failing index as failed. That POST's
    events were polled off the queue, so they are dropped and not
    requeued (`Relay.FailedBatchDropped`).
  - Two worked scenarios pin down the timing. Each holds for any
    complete configuration and any events a, b, c and d where c is the
    only one below the threshold (for example threshold WARN with a WARN,
    b ERROR, c INFO and d WARN).

Two consequences of the code's timing are worth stating:

- Only `append()` writes `LAST_SENT_TIMESTAMP`, at line 108.
  `MultiSenderRunner` never writes it. So an event arriving at t+6200,
  after events at t and t+100 with the second one posted by the drainer,
  is compared with t+100. It goes out on its own
  (`Relay.ScenarioFromNonZeroClock`).
- The timestamp value 0 means "never sent". An event accepted with the
  clock reading 0 therefore leaves the gate open, and the next event is
  also sent on its own (`Relay.ScenarioFromZeroClock`).

## Model

| member | source | states |
|---|---|---|
| Model.ColorTable | src/main/java/kr/geun/logback/appender/SlackAppender.java:78-84 | exactly TRACE, DEBUG, INFO, WARN and ERROR have a colour; each is a distinct seven-character `#RRGGBB` code; ALL and OFF have none |
| Dispatch.ConfigErrors | src/main/java/kr/geun/logback/appender/SlackAppender.java:47-68 | an error status is recorded for a setting if and only if it is unset, each at most once, in the order webhook URL, level, channel, layout; no status exactly when all four are set |
| Dispatch.ErrorCount | src/main/java/kr/geun/logback/appender/SlackAppender.java:48-68 | every unset setting is reported, not only the first: the number of statuses is the number of unset settings |
| Dispatch.Start | src/main/java/kr/geun/logback/appender/SlackAppender.java:47-73 | the appender starts if and only if no error status was recorded, that is all four settings are present; it starts never-sent, with an empty queue and no drainer |
| Dispatch.ThresholdMonotone | src/main/java/kr/geun/logback/appender/SlackAppender.java:94 | the filter is a threshold on logback's level values: accepting a level implies accepting every more severe one; ALL accepts everything, OFF only OFF, and no configured level accepts nothing |
| Dispatch.GateBoundary | src/main/java/kr/geun/logback/appender/SlackAppender.java:96 | never-sent always opens the gate; otherwise it opens if and only if strictly more than 5000 ms have passed, so an event exactly one interval later is deferred |
| Dispatch.Append | src/main/java/kr/geun/logback/appender/SlackAppender.java:87-116 | a rejected or not-started event changes nothing and sets nothing off; an accepted one moves the timestamp to now; on the open gate it is sent on its own with queue and flag untouched; otherwise it joins the tail of the queue, the flag is set, and a drainer is launched if and only if none was active |
| Dispatch.FilteredLeaveStateAlone | src/main/java/kr/geun/logback/appender/SlackAppender.java:88-94 | any number of events the filter rejects leave timestamp, queue and flag exactly as they were and send nothing |
| Dispatch.BurstLaunchesOneDrainer | src/main/java/kr/geun/logback/appender/SlackAppender.java:96-108 | a burst of accepted events arriving while the gate is closed is queued whole and in order behind the existing queue, none is sent alone, and exactly one drainer is launched for the lot if none was active (none otherwise), with no drainer run between the calls (true for any burst inside the drainer's first sleep) |
| Dispatch.LastSentMonotone | src/main/java/kr/geun/logback/appender/SlackAppender.java:95-108 | under a clock that never reads below a floor, a timestamp at or above the floor stays there over any sequence of calls |
| Encoder.Escape | src/main/java/kr/geun/logback/appender/SlackAppender.java:241 | each quote becomes backslash-quote and nothing else changes: the length grows by the number of quotes, the quotes are kept, and the backslashes grow by exactly the number of quotes |
| Encoder.UnescapeEscape | src/main/java/kr/geun/logback/appender/SlackAppender.java:241 | escaping loses nothing: reading backslash-quote back as a quote recovers the original text |
| Encoder.EscapedQuotesGuarded | src/main/java/kr/geun/logback/appender/SlackAppender.java:241 | in an escaped text every quote is immediately preceded by a backslash |
| Encoder.EscapeQuoteFree | src/main/java/kr/geun/logback/appender/SlackAppender.java:241 | a text without quotes is passed through unchanged |
| Encoder.CoverShape | src/main/java/kr/geun/logback/appender/SlackAppender.java:225-228 | the covered text is two characters longer, starts and ends with a quote, and holds exactly the text in between; null is covered as `"null"` |
| Encoder.ReplaceQuote | src/main/java/kr/geun/logback/appender/SlackAppender.java:237-242 | null gives the empty text; a non-null text gives its escaped form, whose length grows by the number of quotes and which unescapes to the original |
| Encoder.ToJsonString | src/main/java/kr/geun/logback/appender/SlackAppender.java:164-189 | a null map gives the empty text, and only a null map does; any map, even an empty one, gives a text that starts with `{` and ends with `}` |
| Encoder.JsonStringRoundTrip | src/main/java/kr/geun/logback/appender/SlackAppender.java:164-189 | every entry is written as a quoted key, a colon and a quoted value (null as `null`), separated by commas, in insertion order: parsing the object back gives exactly the keys and rendered values that went in |
| Encoder.BuildJsonString | src/main/java/kr/geun/logback/appender/SlackAppender.java:164-189 | the `StringBuffer` loop with its `firstKey` flag writes exactly the object the reference definition describes |
| Encoder.ToJsonArray | src/main/java/kr/geun/logback/appender/SlackAppender.java:198-217 | a null list gives the empty text, and only a null list does; any list gives a text that starts with `{"attachments":[` and ends with `]}` |
| Encoder.JsonArrayRoundTrip | src/main/java/kr/geun/logback/appender/SlackAppender.java:198-217 | the items are written one after another separated by single commas: splitting the envelope back gives exactly the list, in order |
| Encoder.JsonArrayEmpty | src/main/java/kr/geun/logback/appender/SlackAppender.java:198-217 | an empty list gives an envelope with an empty array |
| Encoder.BuildJsonArray | src/main/java/kr/geun/logback/appender/SlackAppender.java:198-217 | the `StringBuffer` loop writes exactly the envelope the reference definition describes |
| Encoder.SendTextShape | src/main/java/kr/geun/logback/appender/SlackAppender.java:250-258 | the message for an event has the keys pretext, text, channel and color, in that order; pretext and text are escaped, the channel is written as it is, and a level without a colour gives `null` |
| Encoder.SendTextRecoversPretext | src/main/java/kr/geun/logback/appender/SlackAppender.java:124-128 | reading the message back gives four entries: the unescaped pretext is `[LEVEL] message` (null message as `null`), the unescaped text is the rendered event, or empty when the rendering is null (lines 238-239), then the channel and the colour |
| Drainer.Chunks | src/main/java/kr/geun/logback/appender/SlackAppender.java:304-314 | a queue of N events is cut into ceil(N / 30) batches |
| Drainer.ChunkAt | src/main/java/kr/geun/logback/appender/SlackAppender.java:304-314 | batch k is exactly events 30k up to 30k+30 of the queue, cut short at its end |
| Drainer.ChunkSizes | src/main/java/kr/geun/logback/appender/SlackAppender.java:304-319 | no batch is empty or larger than 30; every batch but the last is full; the last holds N mod 30 events when that is not 0 |
| Drainer.ChunksDrop | src/main/java/kr/geun/logback/appender/SlackAppender.java:304-319 | the batches from k on, written one after another, are the queue from event 30k on; from 0 on they are the queue itself, nothing lost, repeated or reordered |
| Drainer.Drain | src/main/java/kr/geun/logback/appender/SlackAppender.java:294-326 | the flag is cleared and the timestamp untouched; the posted batches followed by what stays queued are the queue in order; batch sizes as above; with no failure, ceil(N / 30) posts and an empty queue; an empty queue posts nothing; a failing POST is the last one made; the batches are the queue's first chunks of 30, in order, and exactly the events after the last attempted batch stay queued |
| Drainer.PollLoop | src/main/java/kr/geun/logback/appender/SlackAppender.java:304-314 | the polling loop has posted exactly the payloads of the first batches, in order, and holds the messages of the events polled since; it stops only at the end of the queue or right after the first failing POST |
| Drainer.RunDrainer | src/main/java/kr/geun/logback/appender/SlackAppender.java:294-326 | the loop as written posts exactly the payloads of the batches the reference definition names, and leaves exactly the state it describes |
| Relay.Next | src/main/java/kr/geun/logback/appender/SlackAppender.java:87-116 | configuration and started flag never change; a drainer run, finished or interrupted in any of its sleeps, never moves the timestamp and leaves the flag cleared; an interrupted one posts nothing and leaves the queue as it was; a filtered event changes nothing; posts are only ever added at the end of the wire |
| Relay.ReceiveKeepsInv | src/main/java/kr/geun/logback/appender/SlackAppender.java:96-108 | a call to `append()` keeps both invariants: one drainer alive if and only if the flag is set, and every deferred event either posted in a batch or queued, in order |
| Relay.InterruptKeepsInv | src/main/java/kr/geun/logback/appender/SlackAppender.java:294-296 | a drainer interrupted in its first sleep keeps both invariants: the queue is untouched and the flag falls with the thread (the finally block at 324-326) |
| Relay.DrainerRun | src/main/java/kr/geun/logback/appender/SlackAppender.java:294-326 | the drainer loop as written, run on the state it wakes to, POSTs exactly the rendered bodies of the batch posts the wake-up step adds to the wire, in order, and leaves the same state |
| Relay.WakeKeepsInv | src/main/java/kr/geun/logback/appender/SlackAppender.java:294-326 | a drainer run keeps both invariants: every batch it attempts, the failed one included, leaves the queue in order, and the flag falls with the thread |
| Relay.WakeMarksOnlyFailure | src/main/java/kr/geun/logback/appender/SlackAppender.java:304-322 | a finished drainer run adds only batch posts, and a post is undelivered exactly when its index is the failing POST's |
| Relay.PauseKeepsInv | src/main/java/kr/geun/logback/appender/SlackAppender.java:308-313 | a drainer stopped by an interrupted 500 ms pause keeps both invariants |
| Relay.PauseDelivers | src/main/java/kr/geun/logback/appender/SlackAppender.java:308-326 | when the pause after POST k is interrupted, the first k + 1 batches are on the wire, all delivered, only the chunks after them stay queued, and the flag is cleared |
| Relay.FailedBatchDropped | src/main/java/kr/geun/logback/appender/SlackAppender.java:304-322 | when POST k fails, k + 1 batches are on the wire, all delivered but the last; the last is the queue's chunk k; only the events after it stay queued, so that chunk's events are dropped |
| Relay.NextKeepsInv | src/main/java/kr/geun/logback/appender/SlackAppender.java:100-104 | every step keeps both invariants |
| Relay.RunKeepsInv | src/main/java/kr/geun/logback/appender/SlackAppender.java:100-104 | any interleaving of calls, drainer runs and drainer interruptions keeps both invariants, so never more than one drainer is alive |
| Relay.FromStart | src/main/java/kr/geun/logback/appender/SlackAppender.java:34-37 | from a freshly started appender, whatever happens, the invariants hold and at most one drainer is alive (for renders that do not throw) |
| Relay.ScenarioFromNonZeroClock | src/main/java/kr/geun/logback/appender/SlackAppender.java:96-108 | for a complete configuration that accepts a, b and d but not c, from clock t > 0: a is sent alone, b is posted as a batch of one by the drainer, c is filtered, d at t+6200 is sent alone; the queue ends empty with no drainer |
| Relay.ScenarioFromZeroClock | src/main/java/kr/geun/logback/appender/SlackAppender.java:96 | the same events with the clock starting at 0: a leaves the timestamp at 0, so b is sent alone too and no drainer is ever launched |

## Left out

- HTTP itself (`requestPost`, lines 137-156) is not modelled. That covers the URL, the timeouts, the response check and UTF-8 encoding. A POST is its body text. Whether it fails is an input to the drainer.
- A failure of the single-event sender (`SenderRunner`) only logs an error, which changes no state. The model records the post and nothing else.
- Threads, the lock and the sleeps are not modelled. This covers the drainer's initial sleep and the 500 ms pause between batches. Each `append()` call and each complete drainer run is one atomic step.
- The drainer reads `LINKED_QUE` outside the lock while `append()` may offer to it. That race is not modelled.
- An interrupted pause between batches, after POST k, is its own input, `DrainerPauseInterrupted(k)`: batches up to k are on the wire and delivered, and the rest stay queued. An interrupted first sleep is the input `DrainerInterrupted`. A run that fails at one POST and is interrupted at a later pause cannot happen, since the failure ends it first.
- Rendering an event cannot throw in the model, because the layout's output is a field of the event. In the code, `layout.doLayout` inside `makeSendText` (line 253, called at 305) may throw. The drainer would then lose the event it just polled and every message polled since the last POST, with no POST. So `Relay.RunKeepsInv` and `Relay.FromStart` promise that every deferred event is in an attempted batch POST or still queued only when rendering never throws.
- Relay.RunKeepsInv: does not cover a render that throws inside the drainer, for the reason above.
- Relay.FromStart: does not cover a render that throws inside the drainer, for the reason above.
- `IS_SEC_THREAD_RUN` and the colour table are static, so they are shared by all appender instances in the process. The model has one appender, with the flag in its own state.
- The logback framework is not modelled: `addStatus`/`addError`, `isStarted`, and the layout. The layout's output is a field of the event.
- Dispatch.Append: does not model the 64-bit wrap-around of `LAST_SENT_TIMESTAMP + SEND_INTERVAL` near `Long.MAX_VALUE`; the clock is an unbounded integer.
- Dispatch.GateBoundary: states the gate on unbounded integers, for the same reason.
- Encoder.ToJsonString: a map is an ordered list of entries. The duplicate-key replacement of `LinkedHashMap` is not modelled, because `makeSendText` puts four distinct keys.
- Encoder.JsonStringRoundTrip: the parser is given every key and value length. Backslashes are not escaped, so a written text cannot in general be split without them.
- Encoder.JsonArrayRoundTrip: the parser is given every item length, for the same reason.
- Encoder.SendTextRecoversPretext: the parser is given every key and value length, for the same reason.

=== FILE: base.dfy ===
/** Small vocabulary shared by the rest of the model: Java's nullable
    references, the separator join used by both JSON builders, its inverse,
    and flattening of batches. */
module Base {

  /** A Java reference that may be null. */
  datatype Option<+T> = None | Some(value: T)

  /** How Java string concatenation (and StringBuffer.append) renders a
      possibly-null String: null prints as the four letters "null". */
  function NullText(s: Option<string>): string
  {
    match s
    case None => "null"
    case Some(t) => t
  }

  /** The items written one after another with a single separator character
      between neighbours; no separator before the first or after the last. */
  function Join(items: seq<string>, sep: char): string
  {
    if |items| == 0 then ""
    else if |items| == 1 then items[0]
    else items[0] + [sep] + Join(items[1..], sep)
  }

  /** Appending one more item to a non-empty join adds exactly one separator
      and the item: the step a left-to-right builder loop takes. */
  lemma {:induction false} JoinSnoc(items: seq<string>, x: string, sep: char)
    requires |items| > 0
    ensures Join(items + [x], sep) == Join(items, sep) + [sep] + x
  {
    if |items| == 1 {
      assert items + [x] == [items[0], x];
      assert (items + [x])[1..] == [x];
    } else {
      assert (items + [x])[1..] == items[1..] + [x];
      JoinSnoc(items[1..], x, sep);
    }
  }

  function Lengths(items: seq<string>): (r: seq<nat>)
    ensures |r| == |items|
    ensures forall i :: 0 <= i < |items| ==> r[i] == |items[i]|
  {
    seq(|items|, i requires 0 <= i < |items| => |items[i]|)
  }

  /** Cuts s into pieces of the given lengths, each neighbouring pair separated
      by exactly one sep character; None when s does not have that shape. */
  function Split(s: string, lens: seq<nat>, sep: char): Option<seq<string>>
    decreases |lens|
  {
    if |lens| == 0 then (if s == [] then Some([]) else None)
    else if |lens| == 1 then (if lens[0] == |s| then Some([s]) else None)
    else if lens[0] < |s| && s[lens[0]] == sep then
      match Split(s[lens[0] + 1..], lens[1..], sep)
      case None => None
      case Some(rest) => Some([s[..lens[0]]] + rest)
    else None
  }

  /** Knowing the item lengths, a join can be cut back into exactly the
      original items, in their original order: nothing is lost, merged or
      reordered by joining, even when the items themselves hold separators. */
  lemma {:induction false} SplitJoin(items: seq<string>, sep: char)
    ensures Split(Join(items, sep), Lengths(items), sep) == Some(items)
  {
    if |items| >= 2 {
      var s := Join(items, sep);
      var n := |items[0]|;
      assert s == items[0] + [sep] + Join(items[1..], sep);
      assert s[..n] == items[0];
      assert s[n] == sep;
      assert s[n + 1..] == Join(items[1..], sep);
      var lens := Lengths(items);
      assert lens[0] == n && |lens| >= 2;
      assert lens[1..] == Lengths(items[1..]);
      SplitJoin(items[1..], sep);
      assert Split(s[n + 1..], lens[1..], sep) == Some(items[1..]);
      assert [items[0]] + items[1..] == items;
    } else if |items| == 1 {
      assert [items[0]] == items;
    }
  }

  /** The batches written one after another. */
  function Flatten<T>(xss: seq<seq<T>>): seq<T>
  {
    if |xss| == 0 then [] else xss[0] + Flatten(xss[1..])
  }

  lemma {:induction false} FlattenAppend<T>(a: seq<seq<T>>, b: seq<seq<T>>)
    ensures Flatten(a + b) == Flatten(a) + Flatten(b)
  {
    if |a| > 0 {
      assert (a + b)[1..] == a[1..] + b;
      FlattenAppend(a[1..], b);
    } else {
      assert a + b == b;
    }
  }

  /** A sequence is its first n elements followed by the rest. */
  lemma TakeDrop<T>(s: seq<T>, n: nat)
    requires n <= |s|
    ensures s[..n] + s[n..] == s
  {
  }

  // The regroupings below are facts the verifier knows; stating them as
  // lemmas only keeps the proofs that use them small and cheap.

  /** Regrouping a concatenation of three pieces. */
  lemma Associate3<T>(a: seq<T>, b: seq<T>, c: seq<T>)
    ensures a + b + c == a + (b + c)
  {
  }

  /** Regrouping a concatenation of four pieces. */
  lemma Associate<T>(a: seq<T>, b: seq<T>, c: seq<T>, d: seq<T>)
    ensures a + b + c + d == a + (b + c + d)
  {
  }

  function Min(a: int, b: int): int
  {
    if a <= b then a else b
  }
}

=== FILE: dispatch.dfy ===
/** Startup validation and the per-event dispatch step of the Slack appender:
    start(), the severity filter, the rate gate and the choice between the
    immediate path and the deferred (queued) path in append(). */
module Dispatch {
  import opened Base
  import opened Model

  // ---------------------------------------------------------------------
  // start()
  // ---------------------------------------------------------------------

  /** One "Requirement ..." error status of start(). */
  datatype ConfigError = MissingWebhookUrl | MissingNotiLevel | MissingChannel | MissingLayout

  /** The order in which start() checks the required settings. */
  function CheckOrder(err: ConfigError): nat
  {
    match err
    case MissingWebhookUrl => 0
    case MissingNotiLevel => 1
    case MissingChannel => 2
    case MissingLayout => 3
  }

  /** The setting an error complains about is indeed unset. */
  predicate Lacks(c: Config, err: ConfigError)
  {
    match err
    case MissingWebhookUrl => c.webhookUrl.None?
    case MissingNotiLevel => c.notiLevel.None?
    case MissingChannel => c.channel.None?
    case MissingLayout => c.layout.None?
  }

  predicate Complete(c: Config)
  {
    c.webhookUrl.Some? && c.notiLevel.Some? && c.channel.Some? && c.layout.Some?
  }

  /** The error statuses start() records: one for every unset setting, none
      for a set one, each at most once, in the order the checks run. */
  function ConfigErrors(c: Config): (errs: seq<ConfigError>)
    ensures forall err :: err in errs <==> Lacks(c, err)
    ensures forall i, j :: 0 <= i < j < |errs| ==> CheckOrder(errs[i]) < CheckOrder(errs[j])
    ensures |errs| == 0 <==> Complete(c)
  {
    (if c.webhookUrl.None? then [MissingWebhookUrl] else [])
    + (if c.notiLevel.None? then [MissingNotiLevel] else [])
    + (if c.channel.None? then [MissingChannel] else [])
    + (if c.layout.None? then [MissingLayout] else [])
  }

  /** Every unset setting is reported, not just the first: the number of
      errors is the number of unset settings. */
  lemma ErrorCount(c: Config)
    ensures |ConfigErrors(c)| ==
      (if c.webhookUrl.None? then 1 else 0) + (if c.notiLevel.None? then 1 else 0)
      + (if c.channel.None? then 1 else 0) + (if c.layout.None? then 1 else 0)
  {
  }

  /** A freshly constructed appender on which start() is called: it becomes
      started exactly when no error was recorded, that is when all four
      settings are present. start() itself does not touch the dispatch
      state; never-sent, empty queue and no drainer are the values of the
      field initialisers of a new instance. */
  function Start(c: Config): (a: Appender)
    ensures a.started <==> Complete(c)
    ensures a.started <==> |ConfigErrors(c)| == 0
    ensures a.config == c && a.state == InitialState
  {
    Appender(c, |ConfigErrors(c)| == 0, InitialState)
  }

  // ---------------------------------------------------------------------
  // append()
  // ---------------------------------------------------------------------

  /** What append() sets off besides changing the state: a thread sending
      the event on its own, a new drainer thread, or nothing. */
  datatype Action = Idle | SendSingle(event: Event) | LaunchDrainer

  datatype Step = Step(state: State, action: Action)

  /** The severity filter. With no threshold configured the comparison
      throws inside append's try block and the exception is swallowed, so
      such an event is not accepted either. */
  predicate Accepts(c: Config, l: Level)
  {
    c.notiLevel.Some? && l.IsGreaterOrEqual(c.notiLevel.value)
  }

  /** The filter is a threshold: whatever it accepts, it accepts every more
      severe level too; ALL lets everything through and OFF only OFF. */
  lemma ThresholdMonotone(c: Config, l: Level, m: Level)
    ensures Accepts(c, l) && m.LevelInt() >= l.LevelInt() ==> Accepts(c, m)
    ensures c.notiLevel == Some(All) ==> Accepts(c, l)
    ensures c.notiLevel == Some(Off) ==> (Accepts(c, l) <==> l == Off)
    ensures c.notiLevel.None? ==> !Accepts(c, l)
  {
  }

  /** The rate gate: never sent before (timestamp 0), or strictly more than
      the interval has passed since the last accepted event. */
  predicate SendsImmediately(lastSent: int, now: int)
  {
    lastSent == 0 || lastSent + SendInterval < now
  }

  /** The gate's tie-break: at exactly one interval after the last accepted
      event the event is still deferred; one millisecond later it is sent. */
  lemma GateBoundary(lastSent: int, now: int)
    ensures lastSent == 0 ==> SendsImmediately(lastSent, now)
    ensures lastSent != 0 ==> (SendsImmediately(lastSent, now) <==> now > lastSent + SendInterval)
    ensures lastSent != 0 && now == lastSent + SendInterval ==> !SendsImmediately(lastSent, now)
  {
  }

  /** append(eventObject) at time now, as one atomic step under the lock. */
  function Append(a: Appender, e: Event, now: int): (r: Step)
    // not started, or below the threshold: nothing changes, nothing is sent
    ensures !(a.started && Accepts(a.config, e.level)) ==> r == Step(a.state, Idle)
    // every accepted event moves the timestamp to now, whichever path it takes
    ensures a.started && Accepts(a.config, e.level) ==> r.state.lastSent == now
    // immediate path: one single send of this very event, queue and flag untouched
    ensures a.started && Accepts(a.config, e.level) && SendsImmediately(a.state.lastSent, now) ==>
      r.action == SendSingle(e) && r.state.queue == a.state.queue && r.state.drainerActive == a.state.drainerActive
    // deferred path: the event joins the tail of the queue, a drainer is launched
    // exactly when none was active, and afterwards one is active
    ensures a.started && Accepts(a.config, e.level) && !SendsImmediately(a.state.lastSent, now) ==>
      && r.state.queue == a.state.queue + [e]
      && r.state.drainerActive
      && (r.action == LaunchDrainer <==> !a.state.drainerActive)
      && (r.action == Idle <==> a.state.drainerActive)
  {
    if !a.started then Step(a.state, Idle)
    else if !Accepts(a.config, e.level) then Step(a.state, Idle)
    else if SendsImmediately(a.state.lastSent, now) then
      Step(a.state.(lastSent := now), SendSingle(e))
    else if !a.state.drainerActive then
      Step(State(now, a.state.queue + [e], true), LaunchDrainer)
    else
      Step(State(now, a.state.queue + [e], true), Idle)
  }

  // ---------------------------------------------------------------------
  // Sequences of calls to append()
  // ---------------------------------------------------------------------

  datatype Arrival = Arrival(event: Event, now: int)

  datatype Run = Run(state: State, actions: seq<Action>)

  /** append() called for each arrival in turn, with no drainer running in
      between. */
  function AppendAll(a: Appender, arrivals: seq<Arrival>): (r: Run)
    ensures |r.actions| == |arrivals|
    decreases |arrivals|
  {
    if |arrivals| == 0 then Run(a.state, [])
    else
      var step := Append(a, arrivals[0].event, arrivals[0].now);
      var rest := AppendAll(a.(state := step.state), arrivals[1..]);
      Run(rest.state, [step.action] + rest.actions)
  }

  function Launches(actions: seq<Action>): nat
  {
    if |actions| == 0 then 0
    else (if actions[0] == LaunchDrainer then 1 else 0) + Launches(actions[1..])
  }

  function Events(arrivals: seq<Arrival>): (r: seq<Event>)
    ensures |r| == |arrivals|
    ensures forall i :: 0 <= i < |arrivals| ==> r[i] == arrivals[i].event
  {
    seq(|arrivals|, i requires 0 <= i < |arrivals| => arrivals[i].event)
  }

  /** Events the filter rejects leave the dispatch state exactly as it was
      and set nothing off, however many of them arrive. */
  lemma {:induction false} FilteredLeaveStateAlone(a: Appender, arrivals: seq<Arrival>)
    requires forall i :: 0 <= i < |arrivals| ==> !(a.started && Accepts(a.config, arrivals[i].event.level))
    ensures AppendAll(a, arrivals).state == a.state
    ensures forall i :: 0 <= i < |arrivals| ==> AppendAll(a, arrivals).actions[i] == Idle
    decreases |arrivals|
  {
    if |arrivals| > 0 {
      var step := Append(a, arrivals[0].event, arrivals[0].now);
      assert step == Step(a.state, Idle);
      assert a.(state := step.state) == a;
      FilteredLeaveStateAlone(a, arrivals[1..]);
    }
  }

  /** Each arrival comes no later than one interval after the one before it
      (the first, no later than one interval after lastSent), and no clock
      reads 0. */
  predicate Burst(lastSent: int, arrivals: seq<Arrival>)
    decreases |arrivals|
  {
    |arrivals| == 0 ||
    (arrivals[0].now != 0 && arrivals[0].now <= lastSent + SendInterval && Burst(arrivals[0].now, arrivals[1..]))
  }

  /** A burst of accepted events arriving while the gate is closed is
      queued whole, in arrival order, behind what was already queued; none
      of them is sent on its own; and exactly one drainer is launched for
      the lot when none was active (none otherwise). The calls follow one
      another with no drainer run between them, which holds for any burst
      inside the drainer's first sleep; a burst spread out longer can see
      the drainer finish and a second one launched. */
  lemma {:induction false} BurstLaunchesOneDrainer(a: Appender, arrivals: seq<Arrival>)
    requires a.started && a.state.lastSent != 0
    requires forall i :: 0 <= i < |arrivals| ==> Accepts(a.config, arrivals[i].event.level)
    requires Burst(a.state.lastSent, arrivals)
    ensures AppendAll(a, arrivals).state.queue == a.state.queue + Events(arrivals)
    ensures forall i :: 0 <= i < |arrivals| ==> !AppendAll(a, arrivals).actions[i].SendSingle?
    ensures Launches(AppendAll(a, arrivals).actions) == (if |arrivals| > 0 && !a.state.drainerActive then 1 else 0)
    ensures |arrivals| > 0 ==> AppendAll(a, arrivals).state.drainerActive
    ensures |arrivals| > 0 ==> AppendAll(a, arrivals).state.lastSent == arrivals[|arrivals| - 1].now
  {
    BurstQueues(a, arrivals);
    BurstClock(a, arrivals);
    BurstActions(a, arrivals);
  }

  /** An accepted event that arrives no later than one interval after a
      real timestamp takes the deferred path. */
  lemma Defers(a: Appender, e: Event, now: int)
    requires a.started && a.state.lastSent != 0
    requires Accepts(a.config, e.level)
    requires now <= a.state.lastSent + SendInterval
    ensures Append(a, e, now) ==
      Step(State(now, a.state.queue + [e], true), if a.state.drainerActive then Idle else LaunchDrainer)
  {
  }

  /** The appender after an accepted event took the deferred path. */
  function Queued(a: Appender, x: Arrival): Appender
  {
    a.(state := State(x.now, a.state.queue + [x.event], true))
  }

  /** The first arrival of a burst is deferred, and the rest of the burst is
      again a burst for the appender it leaves behind. */
  lemma BurstTail(a: Appender, arrivals: seq<Arrival>)
    requires a.started && a.state.lastSent != 0
    requires forall i :: 0 <= i < |arrivals| ==> Accepts(a.config, arrivals[i].event.level)
    requires Burst(a.state.lastSent, arrivals) && |arrivals| > 0
    ensures Append(a, arrivals[0].event, arrivals[0].now) ==
      Step(Queued(a, arrivals[0]).state, if a.state.drainerActive then Idle else LaunchDrainer)
    ensures Queued(a, arrivals[0]).started && Queued(a, arrivals[0]).state.lastSent != 0
    ensures forall i :: 0 <= i < |arrivals[1..]| ==> Accepts(a.config, arrivals[1..][i].event.level)
    ensures Burst(Queued(a, arrivals[0]).state.lastSent, arrivals[1..])
  {
    Defers(a, arrivals[0].event, arrivals[0].now);
    forall i | 0 <= i < |arrivals[1..]|
      ensures Accepts(a.config, arrivals[1..][i].event.level)
    {
      assert arrivals[1..][i] == arrivals[i + 1];
    }
  }

  /** A run of calls is the first call followed by the run of the rest. */
  lemma AppendAllCons(a: Appender, arrivals: seq<Arrival>, step: Step)
    requires |arrivals| > 0 && step == Append(a, arrivals[0].event, arrivals[0].now)
    ensures AppendAll(a, arrivals).state == AppendAll(a.(state := step.state), arrivals[1..]).state
    ensures AppendAll(a, arrivals).actions == [step.action] + AppendAll(a.(state := step.state), arrivals[1..]).actions
  {
  }

  lemma EventsCons(arrivals: seq<Arrival>)
    requires |arrivals| > 0
    ensures Events(arrivals) == [arrivals[0].event] + Events(arrivals[1..])
  {
  }

  /** The queue after a burst. */
  lemma {:induction false} BurstQueues(a: Appender, arrivals: seq<Arrival>)
    requires a.started && a.state.lastSent != 0
    requires forall i :: 0 <= i < |arrivals| ==> Accepts(a.config, arrivals[i].event.level)
    requires Burst(a.state.lastSent, arrivals)
    ensures AppendAll(a, arrivals).state.queue == a.state.queue + Events(arrivals)
    decreases |arrivals|
  {
    if |arrivals| > 0 {
      var e, rest := arrivals[0].event, arrivals[1..];
      var a' := Queued(a, arrivals[0]);
      BurstTail(a, arrivals);
      AppendAllCons(a, arrivals, Append(a, e, arrivals[0].now));
      BurstQueues(a', rest);
      EventsCons(arrivals);
      Associate3(a.state.queue, [e], Events(rest));
    }
  }

  /** The flag and the timestamp after a non-empty burst. */
  lemma {:induction false} BurstClock(a: Appender, arrivals: seq<Arrival>)
    requires a.started && a.state.lastSent != 0
    requires forall i :: 0 <= i < |arrivals| ==> Accepts(a.config, arrivals[i].event.level)
    requires Burst(a.state.lastSent, arrivals)
    ensures |arrivals| > 0 ==> AppendAll(a, arrivals).state.drainerActive
    ensures |arrivals| > 0 ==> AppendAll(a, arrivals).state.lastSent == arrivals[|arrivals| - 1].now
    decreases |arrivals|
  {
    if |arrivals| > 0 {
      var rest := arrivals[1..];
      var a' := Queued(a, arrivals[0]);
      BurstTail(a, arrivals);
      AppendAllCons(a, arrivals, Append(a, arrivals[0].event, arrivals[0].now));
      BurstClock(a', rest);
      if |rest| > 0 {
        assert arrivals[|arrivals| - 1] == rest[|rest| - 1];
      } else {
        assert AppendAll(a', rest).state == a'.state;
      }
    }
  }

  /** What a burst sets off: no single sends, and a launch only for the
      first event and only when no drainer was active. */
  lemma {:induction false} BurstActions(a: Appender, arrivals: seq<Arrival>)
    requires a.started && a.state.lastSent != 0
    requires forall i :: 0 <= i < |arrivals| ==> Accepts(a.config, arrivals[i].event.level)
    requires Burst(a.state.lastSent, arrivals)
    ensures forall i :: 0 <= i < |arrivals| ==> !AppendAll(a, arrivals).actions[i].SendSingle?
    ensures Launches(AppendAll(a, arrivals).actions) == (if |arrivals| > 0 && !a.state.drainerActive then 1 else 0)
    decreases |arrivals|
  {
    if |arrivals| > 0 {
      var rest := arrivals[1..];
      var first := if a.state.drainerActive then Idle else LaunchDrainer;
      var a' := Queued(a, arrivals[0]);
      BurstTail(a, arrivals);
      AppendAllCons(a, arrivals, Append(a, arrivals[0].event, arrivals[0].now));
      BurstActions(a', rest);
      var actions := AppendAll(a, arrivals).actions;
      assert actions == [first] + AppendAll(a', rest).actions;
      assert actions[1..] == AppendAll(a', rest).actions;
    }
  }

  /** With a clock that never reads below some floor, a timestamp at or
      above that floor stays at or above it over any sequence of calls; in
      particular it never decreases under a clock that never runs backwards. */
  lemma {:induction false} LastSentMonotone(a: Appender, arrivals: seq<Arrival>, floor: int)
    requires floor <= a.state.lastSent
    requires forall i :: 0 <= i < |arrivals| ==> floor <= arrivals[i].now
    ensures floor <= AppendAll(a, arrivals).state.lastSent
    decreases |arrivals|
  {
    if |arrivals| > 0 {
      var step := Append(a, arrivals[0].event, arrivals[0].now);
      LastSentMonotone(a.(state := step.state), arrivals[1..], floor);
    }
  }
}

=== FILE: drainer.dfy ===
/** The batch drainer (MultiSenderRunner.run) without its sleeps: it empties
    the queue in consecutive batches of at most MaxSendSize events, one POST
    per batch, and always clears the drainer flag on the way out. */
module Drainer {
  import opened Base
  import opened Model
  import opened Encoder

  // ---------------------------------------------------------------------
  // Cutting a queue into batches
  // ---------------------------------------------------------------------

  /** The queue cut front to back into batches of MaxSendSize; the last one
      holds whatever is left over. */
  function Chunks<T>(xs: seq<T>): (r: seq<seq<T>>)
    ensures |r| == (|xs| + MaxSendSize - 1) / MaxSendSize
    decreases |xs|
  {
    if |xs| == 0 then []
    else if |xs| <= MaxSendSize then [xs]
    else [xs[..MaxSendSize]] + Chunks(xs[MaxSendSize..])
  }

  /** Batch k is exactly the k-th run of MaxSendSize consecutive events
      (cut short at the end of the queue). */
  lemma {:induction false} ChunkAt<T>(xs: seq<T>, k: nat)
    requires k < |Chunks(xs)|
    ensures Chunks(xs)[k] == xs[MaxSendSize * k .. Min(MaxSendSize * k + MaxSendSize, |xs|)]
    decreases |xs|
  {
    if k > 0 {
      assert |xs| > MaxSendSize;
      var rest := xs[MaxSendSize..];
      assert Chunks(xs)[k] == Chunks(rest)[k - 1];
      ChunkAt(rest, k - 1);
      assert rest[MaxSendSize * (k - 1) .. Min(MaxSendSize * (k - 1) + MaxSendSize, |rest|)]
          == xs[MaxSendSize * k .. Min(MaxSendSize * k + MaxSendSize, |xs|)];
    }
  }

  /** Every batch but the last is full, the last holds the remainder (a
      full batch when N is a multiple of 30), and no batch is empty. */
  lemma {:induction false} ChunkSizes<T>(xs: seq<T>)
    ensures forall i :: 0 <= i < |Chunks(xs)| ==> 0 < |Chunks(xs)[i]| <= MaxSendSize
    ensures forall i :: 0 <= i < |Chunks(xs)| - 1 ==> |Chunks(xs)[i]| == MaxSendSize
    ensures |xs| > 0 && |xs| % MaxSendSize != 0 ==> |Chunks(xs)[|Chunks(xs)| - 1]| == |xs| % MaxSendSize
  {
    forall i | 0 <= i < |Chunks(xs)|
      ensures 0 < |Chunks(xs)[i]| <= MaxSendSize
      ensures i < |Chunks(xs)| - 1 ==> |Chunks(xs)[i]| == MaxSendSize
      ensures i == |Chunks(xs)| - 1 && |xs| % MaxSendSize != 0 ==> |Chunks(xs)[i]| == |xs| % MaxSendSize
    {
      ChunkAt(xs, i);
    }
  }

  /** The batches from k on, written one after another, are the queue from
      event 30k on. With k = 0: the batches are the queue, in order, with
      nothing lost and nothing repeated. */
  lemma {:induction false} ChunksDrop<T>(xs: seq<T>, k: nat)
    requires k <= |Chunks(xs)|
    ensures Flatten(Chunks(xs)[k..]) == xs[Min(MaxSendSize * k, |xs|)..]
    decreases |xs|
  {
    if |xs| == 0 {
    } else if |xs| <= MaxSendSize {
      if k == 0 {
        assert Chunks(xs)[0..] == [xs];
        assert Flatten([xs]) == xs + Flatten<T>([]);
      } else {
        assert Chunks(xs)[k..] == [];
      }
    } else {
      var rest := xs[MaxSendSize..];
      if k == 0 {
        ChunksDrop(rest, 0);
        assert Chunks(xs)[0..] == Chunks(xs);
        assert Chunks(xs)[1..] == Chunks(rest);
        assert xs == xs[..MaxSendSize] + rest;
      } else {
        assert Chunks(xs)[k..] == Chunks(rest)[k - 1..];
        ChunksDrop(rest, k - 1);
        assert rest[Min(MaxSendSize * (k - 1), |rest|)..] == xs[Min(MaxSendSize * k, |xs|)..];
      }
    }
  }

  /** The first n batches keep the sizes ChunkSizes gives them. */
  lemma PrefixSizes<T>(xs: seq<T>, n: nat)
    requires n <= |Chunks(xs)|
    ensures forall i :: 0 <= i < n ==> 0 < |Chunks(xs)[..n][i]| <= MaxSendSize
    ensures forall i :: 0 <= i < n - 1 ==> |Chunks(xs)[..n][i]| == MaxSendSize
  {
    ChunkSizes(xs);
    forall i | 0 <= i < n
      ensures 0 < |Chunks(xs)[..n][i]| <= MaxSendSize
      ensures i < n - 1 ==> |Chunks(xs)[..n][i]| == MaxSendSize
    {
      assert Chunks(xs)[..n][i] == Chunks(xs)[i];
    }
  }

  // ---------------------------------------------------------------------
  // One run of the drainer
  // ---------------------------------------------------------------------

  datatype DrainResult = DrainResult(batches: seq<seq<Event>>, state: State)

  /** How many POSTs a drain attempts when the POST with index failAt (if
      any) fails: the failing one is attempted, the ones after it are not. */
  function Attempted(total: nat, failAt: Option<nat>): nat
  {
    match failAt
    case None => total
    case Some(k) => if k < total then k + 1 else total
  }

  /** One run of the drainer over the state it finds after its sleep.
      failAt stands for the network: the index of the first POST whose
      request fails, or None when every POST succeeds. A failure ends the
      run; the batches not yet taken stay queued. */
  function Drain(s: State, failAt: Option<nat>): (r: DrainResult)
    // the flag is cleared on every exit path; the timestamp is not touched
    ensures !r.state.drainerActive && r.state.lastSent == s.lastSent
    // the posted batches followed by what is left are the queue, in order
    ensures Flatten(r.batches) + r.state.queue == s.queue
    // the batches are the queue's first chunks of 30, and exactly the events
    // past the last one attempted stay queued
    ensures |r.batches| <= |Chunks(s.queue)| && r.batches == Chunks(s.queue)[..|r.batches|]
    ensures r.state.queue == s.queue[Min(MaxSendSize * |r.batches|, |s.queue|)..]
    ensures forall i :: 0 <= i < |r.batches| ==> 0 < |r.batches[i]| <= MaxSendSize
    ensures forall i :: 0 <= i < |r.batches| - 1 ==> |r.batches[i]| == MaxSendSize
    // with every POST succeeding: ceil(N / 30) POSTs and an empty queue after
    ensures failAt.None? ==> r.state.queue == [] && |r.batches| == (|s.queue| + MaxSendSize - 1) / MaxSendSize
    ensures failAt.None? && |s.queue| % MaxSendSize != 0 ==>
      |r.batches| > 0 && |r.batches[|r.batches| - 1]| == |s.queue| % MaxSendSize
    // an empty queue gives no POST at all
    ensures s.queue == [] ==> r.batches == [] && r.state.queue == []
    // a failing POST is the last one attempted
    ensures failAt.Some? ==>
      |r.batches| == Min(failAt.value + 1, (|s.queue| + MaxSendSize - 1) / MaxSendSize)
  {
    var chunks := Chunks(s.queue);
    var n := Attempted(|chunks|, failAt);
    SplitAt(s.queue, n);
    ChunksDrop(s.queue, n);
    DrainResult(chunks[..n], State(s.lastSent, Flatten(chunks[n..]), false))
  }

  /** Taking the first n batches and leaving the rest queued: the two parts
      together are the queue, and the taken batches keep their sizes. */
  lemma SplitAt<T>(xs: seq<T>, n: nat)
    requires n <= |Chunks(xs)|
    ensures |Chunks(xs)[..n]| == n
    ensures Flatten(Chunks(xs)[..n]) + Flatten(Chunks(xs)[n..]) == xs
    ensures n == |Chunks(xs)| ==> Flatten(Chunks(xs)[n..]) == []
    ensures forall i :: 0 <= i < n ==> 0 < |Chunks(xs)[..n][i]| <= MaxSendSize
    ensures forall i :: 0 <= i < n - 1 ==> |Chunks(xs)[..n][i]| == MaxSendSize
    ensures n == |Chunks(xs)| && |xs| % MaxSendSize != 0 ==>
      n > 0 && |Chunks(xs)[..n][n - 1]| == |xs| % MaxSendSize
  {
    PrefixSizes(xs, n);
    SplitParts(xs, n);
    LastOfAll(xs, n);
  }

  lemma SplitParts<T>(xs: seq<T>, n: nat)
    requires n <= |Chunks(xs)|
    ensures Flatten(Chunks(xs)[..n]) + Flatten(Chunks(xs)[n..]) == xs
    ensures n == |Chunks(xs)| ==> Flatten(Chunks(xs)[n..]) == []
  {
    var chunks := Chunks(xs);
    ChunksDrop(xs, 0);
    assert chunks[0..] == chunks;
    TakeDrop(chunks, n);
    FlattenAppend(chunks[..n], chunks[n..]);
    if n == |chunks| {
      assert chunks[n..] == [];
    }
  }

  lemma LastOfAll<T>(xs: seq<T>, n: nat)
    requires n <= |Chunks(xs)|
    ensures n == |Chunks(xs)| && |xs| % MaxSendSize != 0 ==>
      n > 0 && |Chunks(xs)[..n][n - 1]| == |xs| % MaxSendSize
  {
    if n == |Chunks(xs)| && |xs| % MaxSendSize != 0 {
      ChunkSizes(xs);
      assert Chunks(xs)[..n][n - 1] == Chunks(xs)[n - 1];
    }
  }

  /** The messages of a batch, in order. encode is makeSendText with the
      appender's channel. */
  function Messages(encode: Event -> string, batch: seq<Event>): (r: seq<string>)
    ensures |r| == |batch|
    ensures forall j :: 0 <= j < |batch| ==> r[j] == encode(batch[j])
  {
    seq(|batch|, j requires 0 <= j < |batch| => encode(batch[j]))
  }

  /** The payload of one batched POST: the batch's messages inside the
      attachments envelope. */
  function BatchPayload(encode: Event -> string, batch: seq<Event>): string
  {
    ToJsonArray(Some(Messages(encode, batch)))
  }

  /** The payloads of a list of batches, one per POST. */
  function Payloads(encode: Event -> string, batches: seq<seq<Event>>): (r: seq<string>)
    ensures |r| == |batches|
    ensures forall i :: 0 <= i < |batches| ==> r[i] == BatchPayload(encode, batches[i])
  {
    seq(|batches|, i requires 0 <= i < |batches| => BatchPayload(encode, batches[i]))
  }

  /** Polling one more event adds its message at the end of the send list. */
  lemma MessagesSnoc(encode: Event -> string, q: seq<Event>, lo: nat, hi: nat)
    requires lo <= hi < |q|
    ensures Messages(encode, q[lo..hi + 1]) == Messages(encode, q[lo..hi]) + [encode(q[hi])]
  {
  }

  /** One more POST adds the next batch's payload at the end. */
  lemma PayloadsSnoc(encode: Event -> string, batches: seq<seq<Event>>, n: nat)
    requires n < |batches|
    ensures Payloads(encode, batches[..n + 1]) == Payloads(encode, batches[..n]) + [BatchPayload(encode, batches[n])]
  {
  }

  /** The polling loop's invariant: the POSTs made so far carry the first
      batches, in order, and the send list holds the messages of the events
      polled since the last POST, fewer than MaxSendSize of them. */
  predicate Polling(encode: Event -> string, q: seq<Event>, posts: seq<string>, sendList: seq<string>, polled: nat)
  {
    && polled <= |q|
    && MaxSendSize * |posts| <= polled < MaxSendSize * |posts| + MaxSendSize
    && |posts| <= |Chunks(q)|
    && posts == Payloads(encode, Chunks(q)[..|posts|])
    && sendList == Messages(encode, q[MaxSendSize * |posts|..polled])
  }

  /** One turn of the polling loop: poll the next event into the send list
      and, when the list is full, POST it as the next batch. */
  lemma PollStep(encode: Event -> string, q: seq<Event>, posts: seq<string>, sendList: seq<string>, polled: nat)
    requires Polling(encode, q, posts, sendList, polled) && polled < |q|
    ensures |sendList + [encode(q[polled])]| < MaxSendSize ==>
      Polling(encode, q, posts, sendList + [encode(q[polled])], polled + 1)
    ensures |sendList + [encode(q[polled])]| == MaxSendSize ==>
      |posts| < |Chunks(q)| &&
      Polling(encode, q, posts + [ToJsonArray(Some(sendList + [encode(q[polled])]))], [], polled + 1)
  {
    var n := |posts|;
    MessagesSnoc(encode, q, MaxSendSize * n, polled);
    var full := sendList + [encode(q[polled])];
    assert full == Messages(encode, q[MaxSendSize * n..polled + 1]);
    if polled + 1 == MaxSendSize * n + MaxSendSize {
      assert n < |Chunks(q)|;
      ChunkAt(q, n);
      assert Chunks(q)[n] == q[MaxSendSize * n..polled + 1];
      PayloadsSnoc(encode, Chunks(q), n);
      assert posts + [ToJsonArray(Some(full))] == Payloads(encode, Chunks(q)[..n + 1]);
      assert q[MaxSendSize * (n + 1)..polled + 1] == [];
    }
  }

  /** The polling loop of MultiSenderRunner.run: poll events one at a time
      into the send list and POST the list whenever it reaches MaxSendSize,
      stopping at the first failing POST. The size of the send list plays
      the part of current_send_cnt. On a normal exit the whole queue has
      been polled and fewer than MaxSendSize messages wait in the list. */
  method PollLoop(encode: Event -> string, q: seq<Event>, failAt: Option<nat>)
    returns (posts: seq<string>, sendList: seq<string>, polled: nat, aborted: bool)
    ensures Polling(encode, q, posts, sendList, polled)
    ensures aborted ==> sendList == [] && |posts| > 0 && failAt == Some(|posts| - 1)
    ensures !aborted ==> polled == |q| && (failAt.None? || failAt.value >= |posts|)
  {
    posts := [];
    polled := 0;
    sendList := [];
    aborted := false;
    while polled < |q| && !aborted
      invariant Polling(encode, q, posts, sendList, polled)
      invariant aborted ==> sendList == [] && |posts| > 0 && failAt == Some(|posts| - 1)
      invariant !aborted ==> failAt.None? || failAt.value >= |posts|
      decreases |q| - polled
    {
      PollStep(encode, q, posts, sendList, polled);
      sendList := sendList + [encode(q[polled])];
      polled := polled + 1;
      if |sendList| == MaxSendSize {
        posts := posts + [ToJsonArray(Some(sendList))];
        sendList := [];
        aborted := failAt == Some(|posts| - 1);
      }
    }
  }

  /** MultiSenderRunner.run without its sleeps: nothing to do on an empty
      queue; otherwise the polling loop, then one more POST for a non-empty
      remainder unless a POST failed; the flag is cleared on every path. */
  method RunDrainer(encode: Event -> string, s: State, failAt: Option<nat>) returns (posts: seq<string>, s': State)
    ensures posts == Payloads(encode, Drain(s, failAt).batches)
    ensures s' == Drain(s, failAt).state
  {
    var q := s.queue;
    posts := [];
    var polled := 0;
    if |q| != 0 {
      var sendList, aborted;
      posts, sendList, polled, aborted := PollLoop(encode, q, failAt);
      if !aborted && |sendList| > 0 {
        LastPost(encode, q, posts, sendList);
        posts := posts + [ToJsonArray(Some(sendList))];
      }
      FinalPost(q, failAt, |posts|, polled, |sendList|, aborted);
    }
    s' := State(s.lastSent, q[polled..], false);
    DrainOutcome(encode, s, failAt, posts);
  }

  /** What the loop leaves in a non-empty send list at the end of the queue
      is the last batch. */
  lemma LastPost(encode: Event -> string, q: seq<Event>, posts: seq<string>, sendList: seq<string>)
    requires Polling(encode, q, posts, sendList, |q|) && |sendList| > 0
    ensures |posts| + 1 == |Chunks(q)|
    ensures posts + [ToJsonArray(Some(sendList))] == Payloads(encode, Chunks(q)[..|posts| + 1])
  {
    var n := |posts|;
    ChunkAt(q, n);
    PayloadsSnoc(encode, Chunks(q), n);
  }

  /** Where the polling loop and the final POST leave the count of POSTs
      and the polling position. */
  lemma FinalPost(q: seq<Event>, failAt: Option<nat>, n: nat, polled: nat, left: nat, aborted: bool)
    requires 0 < |q|
    requires aborted ==> left == 0 && n > 0 && failAt == Some(n - 1) && polled == MaxSendSize * n && polled <= |q|
    requires !aborted ==> polled == |q| && left < MaxSendSize
    requires !aborted && left > 0 ==> polled == MaxSendSize * (n - 1) + left && (failAt.None? || failAt.value >= n - 1)
    requires !aborted && left == 0 ==> polled == MaxSendSize * n && (failAt.None? || failAt.value >= n)
    ensures n == Attempted(|Chunks(q)|, failAt)
    ensures polled == Min(MaxSendSize * n, |q|)
  {
  }

  /** Posting the first Attempted batches, in order, and leaving the queue
      from the first event not taken is what Drain describes. */
  lemma DrainOutcome(encode: Event -> string, s: State, failAt: Option<nat>, posts: seq<string>)
    requires |posts| == Attempted(|Chunks(s.queue)|, failAt)
    requires posts == Payloads(encode, Chunks(s.queue)[..|posts|])
    ensures posts == Payloads(encode, Drain(s, failAt).batches)
    ensures State(s.lastSent, s.queue[Min(MaxSendSize * |posts|, |s.queue|)..], false) == Drain(s, failAt).state
  {
    ChunksDrop(s.queue, |posts|);
  }
}

=== FILE: encoder.dfy ===
/** The hand-written JSON payload encoder of the Slack appender: quote
    escaping, quoting, the flat object writer, the "attachments" envelope and
    the four-field message built for every event. */
module Encoder {
  import opened Base
  import opened Model

  // ---------------------------------------------------------------------
  // Quote escaping (replaceQuoteStr)
  // ---------------------------------------------------------------------

  const Quote: char := '"'
  const Backslash: char := '\\'

  /** Every double quote becomes a backslash followed by a double quote;
      nothing else is escaped (in particular a backslash is copied as it is). */
  function Escape(s: string): (r: string)
    ensures |r| == |s| + multiset(s)[Quote]
    ensures multiset(r)[Quote] == multiset(s)[Quote]
    ensures multiset(r)[Backslash] == multiset(s)[Backslash] + multiset(s)[Quote]
    decreases |s|
  {
    if s == [] then []
    else
      assert s == [s[0]] + s[1..];
      (if s[0] == Quote then [Backslash, Quote] else [s[0]]) + Escape(s[1..])
  }

  /** Reads an escaped text back: a backslash followed by a double quote
      stands for a double quote. */
  function Unescape(s: string): string
    decreases |s|
  {
    if s == [] then []
    else if |s| >= 2 && s[0] == Backslash && s[1] == Quote then [Quote] + Unescape(s[2..])
    else [s[0]] + Unescape(s[1..])
  }

  /** An escaped text never starts with a bare quote. */
  lemma EscapeHead(s: string)
    ensures Escape(s) != [] ==> Escape(s)[0] != Quote
  {
  }

  /** Escaping loses nothing: the original text, with every character in its
      original order, is recovered from the escaped one. */
  lemma {:induction false} UnescapeEscape(s: string)
    ensures Unescape(Escape(s)) == s
    decreases |s|
  {
    if s != [] {
      assert s == [s[0]] + s[1..];
      var rest := Escape(s[1..]);
      var e := Escape(s);
      UnescapeEscape(s[1..]);
      if s[0] == Quote {
        assert e == [Backslash, Quote] + rest;
        assert e[0] == Backslash && e[1] == Quote && e[2..] == rest;
        assert Unescape(e) == [Quote] + Unescape(rest);
      } else {
        assert e == [s[0]] + rest;
        assert e[1..] == rest;
        EscapeHead(s[1..]);
        assert !(|e| >= 2 && e[0] == Backslash && e[1] == Quote);
        assert Unescape(e) == [s[0]] + Unescape(rest);
      }
    }
  }

  /** In an escaped text every quote is immediately preceded by a backslash,
      so none of them can end the JSON string it is placed in. */
  lemma {:induction false} EscapedQuotesGuarded(s: string)
    ensures forall i :: 0 <= i < |Escape(s)| && Escape(s)[i] == Quote ==> i > 0 && Escape(s)[i - 1] == Backslash
    decreases |s|
  {
    if s != [] {
      var rest := Escape(s[1..]);
      EscapedQuotesGuarded(s[1..]);
      var head: string := if s[0] == Quote then [Backslash, Quote] else [s[0]];
      assert Escape(s) == head + rest;
      forall i | 0 <= i < |Escape(s)| && Escape(s)[i] == Quote
        ensures i > 0 && Escape(s)[i - 1] == Backslash
      {
        if i >= |head| {
          assert Escape(s)[i] == rest[i - |head|];
          if i - |head| > 0 {
            assert Escape(s)[i - 1] == rest[i - |head| - 1];
          }
        }
      }
    }
  }

  /** A text without quotes is left exactly as it is. */
  lemma {:induction false} EscapeQuoteFree(s: string)
    requires Quote !in s
    ensures Escape(s) == s
    decreases |s|
  {
    if s != [] {
      assert s == [s[0]] + s[1..];
      EscapeQuoteFree(s[1..]);
    }
  }

  /** replaceQuoteStr: null becomes the empty text, anything else is escaped. */
  function ReplaceQuote(o: Option<string>): (r: string)
    ensures o.None? ==> r == ""
    ensures o.Some? ==> |r| == |o.value| + multiset(o.value)[Quote] && Unescape(r) == o.value
  {
    match o
    case None => ""
    case Some(t) => UnescapeEscape(t); Escape(t)
  }

  // ---------------------------------------------------------------------
  // Quoting and the flat object (coverQuoteStr, toJsonString)
  // ---------------------------------------------------------------------

  /** coverQuoteStr: the text between two quotes; null is written as null. */
  function Cover(o: Option<string>): string
  {
    "\"" + NullText(o) + "\""
  }

  /** The covered text is two longer, opens and closes with a quote, and
      holds exactly the text (or null) in between. */
  lemma CoverShape(o: Option<string>)
    ensures |Cover(o)| == |NullText(o)| + 2
    ensures Cover(o)[0] == Quote && Cover(o)[|Cover(o)| - 1] == Quote
    ensures Cover(o)[1..|Cover(o)| - 1] == NullText(o)
    ensures o.None? ==> Cover(o) == [Quote, 'n', 'u', 'l', 'l', Quote]
  {
  }

  /** One key/value pair as toJsonString writes it. */
  function Field(k: string, v: Option<string>): string
  {
    Cover(Some(k)) + ":" + Cover(v)
  }

  function Fields(es: seq<(string, Option<string>)>): (r: seq<string>)
    ensures |r| == |es|
    ensures forall i :: 0 <= i < |es| ==> r[i] == Field(es[i].0, es[i].1)
  {
    seq(|es|, i requires 0 <= i < |es| => Field(es[i].0, es[i].1))
  }

  /** toJsonString over the entries of a LinkedHashMap, in insertion order.
      A null map gives the empty text, any map (even an empty one) gives a
      braced object. */
  function ToJsonString(m: Option<seq<(string, Option<string>)>>): (r: string)
    ensures r == "" <==> m.None?
    ensures m.Some? ==> |r| >= 2 && r[0] == '{' && r[|r| - 1] == '}'
  {
    match m
    case None => ""
    case Some(es) => "{" + Join(Fields(es), ',') + "}"
  }

  /** Reads one "k":"v" pair back, knowing the key's length. */
  function ParseField(f: string, klen: nat): Option<(string, string)>
  {
    if |f| >= klen + 5 && f[0] == '"' && f[klen + 1..klen + 4] == "\":\"" && f[|f| - 1] == '"'
    then Some((f[1..klen + 1], f[klen + 4..|f| - 1]))
    else None
  }

  function ParseFields(fs: seq<string>, klens: seq<nat>): Option<seq<(string, string)>>
    decreases |fs|
  {
    if |fs| != |klens| then None
    else if |fs| == 0 then Some([])
    else
      match (ParseField(fs[0], klens[0]), ParseFields(fs[1..], klens[1..]))
      case (Some(p), Some(ps)) => Some([p] + ps)
      case _ => None
  }

  /** Reads an object written by ToJsonString back, knowing the length of
      every key and every written value. */
  function ParseJsonString(s: string, klens: seq<nat>, vlens: seq<nat>): Option<seq<(string, string)>>
  {
    if |s| >= 2 && s[0] == '{' && s[|s| - 1] == '}' && |klens| == |vlens| then
      match Split(s[1..|s| - 1], seq(|klens|, i requires 0 <= i < |klens| => klens[i] + vlens[i] + 5), ',')
      case None => None
      case Some(fs) => ParseFields(fs, klens)
    else None
  }

  function KeyLengths(es: seq<(string, Option<string>)>): seq<nat>
  {
    seq(|es|, i requires 0 <= i < |es| => |es[i].0|)
  }

  function ValueLengths(es: seq<(string, Option<string>)>): seq<nat>
  {
    seq(|es|, i requires 0 <= i < |es| => |NullText(es[i].1)|)
  }

  /** The entries with every value as Java renders it (null as "null"). */
  function Rendered(es: seq<(string, Option<string>)>): seq<(string, string)>
  {
    seq(|es|, i requires 0 <= i < |es| => (es[i].0, NullText(es[i].1)))
  }

  lemma FieldLength(k: string, v: Option<string>)
    ensures |Field(k, v)| == |k| + |NullText(v)| + 5
  {
  }

  lemma ParseFieldOfField(k: string, v: Option<string>)
    ensures ParseField(Field(k, v), |k|) == Some((k, NullText(v)))
  {
    QuotedField(k, v);
    ParseQuoted(k, NullText(v));
  }

  lemma ParseQuoted(k: string, x: string)
    ensures ParseField("\"" + k + "\":\"" + x + "\"", |k|) == Some((k, x))
  {
    var f := "\"" + k + "\":\"" + x + "\"";
    assert |f| == |k| + |x| + 5;
    assert f[0] == '"' && f[|f| - 1] == '"';
    assert f[1..|k| + 1] == k;
    assert f[|k| + 1..|k| + 4] == "\":\"";
    assert f[|k| + 4..|f| - 1] == x;
  }

  lemma {:induction false} ParseFieldsOfFields(es: seq<(string, Option<string>)>)
    ensures ParseFields(Fields(es), KeyLengths(es)) == Some(Rendered(es))
    decreases |es|
  {
    if |es| > 0 {
      var fs, ks := Fields(es), KeyLengths(es);
      var p := (es[0].0, NullText(es[0].1));
      ParseFieldOfField(es[0].0, es[0].1);
      assert fs[1..] == Fields(es[1..]);
      assert ks[1..] == KeyLengths(es[1..]);
      ParseFieldsOfFields(es[1..]);
      ParseFieldsCons(fs, ks, p, Rendered(es[1..]));
      RenderedCons(es);
    } else {
      assert Rendered(es) == [];
    }
  }

  /** The rendered entries are the first one's followed by the rest's. */
  lemma RenderedCons(es: seq<(string, Option<string>)>)
    requires |es| > 0
    ensures Rendered(es) == [(es[0].0, NullText(es[0].1))] + Rendered(es[1..])
  {
    var r, t := Rendered(es), Rendered(es[1..]);
    assert |r| == 1 + |t|;
    forall i | 0 <= i < |r|
      ensures r[i] == ([(es[0].0, NullText(es[0].1))] + t)[i]
    {
      if i > 0 {
        assert es[1..][i - 1] == es[i];
      }
    }
  }

  /** One parsed field in front of the parsed rest. */
  lemma ParseFieldsCons(fs: seq<string>, ks: seq<nat>, p: (string, string), ps: seq<(string, string)>)
    requires |fs| == |ks| > 0
    requires ParseField(fs[0], ks[0]) == Some(p)
    requires ParseFields(fs[1..], ks[1..]) == Some(ps)
    ensures ParseFields(fs, ks) == Some([p] + ps)
  {
  }

  /** toJsonString keeps every entry, in insertion order: the object can be
      read back into exactly the keys and rendered values that went in. */
  lemma JsonStringRoundTrip(es: seq<(string, Option<string>)>)
    ensures ParseJsonString(ToJsonString(Some(es)), KeyLengths(es), ValueLengths(es)) == Some(Rendered(es))
  {
    var s := ToJsonString(Some(es));
    var inner := Join(Fields(es), ',');
    assert s[1..|s| - 1] == inner;
    var lens := seq(|es|, i requires 0 <= i < |es| => KeyLengths(es)[i] + ValueLengths(es)[i] + 5);
    forall i | 0 <= i < |es|
      ensures lens[i] == |Fields(es)[i]|
    {
      FieldLength(es[i].0, es[i].1);
      assert Fields(es)[i] == Field(es[i].0, es[i].1);
      assert KeyLengths(es)[i] == |es[i].0| && ValueLengths(es)[i] == |NullText(es[i].1)|;
    }
    assert lens == Lengths(Fields(es));
    SplitJoin(Fields(es), ',');
    ParseFieldsOfFields(es);
  }

  /** Writing one more entry, after a comma unless it is the first, extends
      the object text written so far by exactly that entry. */
  lemma EntryStep(es: seq<(string, Option<string>)>, i: nat, before: string, sep: string)
    requires i < |es|
    requires before == "{" + Join(Fields(es[..i]), ',')
    requires sep == if i == 0 then "" else ","
    ensures before + sep + Cover(Some(es[i].0)) + ":" + Cover(es[i].1) == "{" + Join(Fields(es[..i + 1]), ',')
  {
    var written := Fields(es[..i]);
    var f := Field(es[i].0, es[i].1);
    Associate(before + sep, Cover(Some(es[i].0)), ":", Cover(es[i].1));
    assert Fields(es[..i + 1]) == written + [f];
    JoinStep("{", written, f, sep);
  }

  /** The joined text grows by the separator (none before the first item)
      and the new item. */
  lemma JoinStep(head: string, written: seq<string>, f: string, sep: string)
    requires sep == if |written| == 0 then "" else [',']
    ensures head + Join(written, ',') + sep + f == head + Join(written + [f], ',')
  {
    var joined := Join(written, ',');
    if |written| > 0 {
      JoinSnoc(written, f, ',');
      Associate(head, joined, sep, f);
    } else {
      assert written + [f] == [f];
      assert joined == "";
    }
  }

  /** The StringBuffer loop of toJsonString, with its firstKey flag. */
  method BuildJsonString(m: Option<seq<(string, Option<string>)>>) returns (r: string)
    ensures r == ToJsonString(m)
  {
    if m.None? {
      return "";
    }
    var es := m.value;
    var firstKey := true;
    r := "{";
    var i := 0;
    while i < |es|
      invariant 0 <= i <= |es|
      invariant firstKey <==> i == 0
      invariant r == "{" + Join(Fields(es[..i]), ',')
    {
      ghost var before := r;
      ghost var sep: string;
      if firstKey {
        firstKey := false;
        sep := "";
        assert r == before + sep;
      } else {
        r := r + ",";
        sep := ",";
      }
      r := r + Cover(Some(es[i].0)) + ":" + Cover(es[i].1);
      EntryStep(es, i, before, sep);
      i := i + 1;
    }
    assert es[..i] == es;
    r := r + "}";
  }

  // ---------------------------------------------------------------------
  // The batch envelope (toJsonArray)
  // ---------------------------------------------------------------------

  const ArrayHead: string := "{\"attachments\":["

  /** toJsonArray: null gives the empty text; otherwise the items, separated
      by single commas, inside the attachments envelope. */
  function ToJsonArray(l: Option<seq<string>>): (r: string)
    ensures r == "" <==> l.None?
    ensures l.Some? ==> |r| >= |ArrayHead| + 2 && r[..|ArrayHead|] == ArrayHead && r[|r| - 2..] == "]}"
  {
    match l
    case None => ""
    case Some(xs) => ArrayHead + Join(xs, ',') + "]}"
  }

  /** Reads an envelope back, knowing the length of every item. */
  function ParseJsonArray(s: string, lens: seq<nat>): Option<seq<string>>
  {
    if |s| >= |ArrayHead| + 2 && s[..|ArrayHead|] == ArrayHead && s[|s| - 2..] == "]}"
    then Split(s[|ArrayHead|..|s| - 2], lens, ',')
    else None
  }

  /** toJsonArray keeps every item, in list order, with nothing added. */
  lemma JsonArrayRoundTrip(xs: seq<string>)
    ensures ParseJsonArray(ToJsonArray(Some(xs)), Lengths(xs)) == Some(xs)
  {
    var s := ToJsonArray(Some(xs));
    assert s[|ArrayHead|..|s| - 2] == Join(xs, ',');
    SplitJoin(xs, ',');
  }

  /** The empty list gives an envelope with an empty array, not nothing. */
  lemma JsonArrayEmpty()
    ensures ToJsonArray(Some([])) == "{\"attachments\":[]}"
  {
  }

  /** The StringBuffer loop of toJsonArray, with its firstKey flag. */
  method BuildJsonArray(l: Option<seq<string>>) returns (r: string)
    ensures r == ToJsonArray(l)
  {
    if l.None? {
      return "";
    }
    var xs := l.value;
    var firstKey := true;
    r := ArrayHead;
    var i := 0;
    while i < |xs|
      invariant 0 <= i <= |xs|
      invariant firstKey <==> i == 0
      invariant r == ArrayHead + Join(xs[..i], ',')
    {
      if firstKey {
        firstKey := false;
      } else {
        r := r + ",";
      }
      r := r + xs[i];
      assert xs[..i + 1] == xs[..i] + [xs[i]];
      if i > 0 {
        JoinSnoc(xs[..i], xs[i], ',');
      }
      i := i + 1;
    }
    assert xs[..i] == xs;
    r := r + "]}";
  }

  // ---------------------------------------------------------------------
  // The message for one event (getPretext, makeSendText)
  // ---------------------------------------------------------------------

  /** getPretext: the level's name in brackets, a space, then the message
      (a null message prints as null). */
  function Pretext(e: Event): string
  {
    "[" + e.level.LevelStr() + "] " + NullText(e.message)
  }

  /** The four entries makeSendText puts into its LinkedHashMap, in order.
      Pretext and text are escaped; channel and colour are not. */
  function SendFields(channel: Option<string>, e: Event): seq<(string, Option<string>)>
  {
    [ ("pretext", Some(ReplaceQuote(Some(Pretext(e))))),
      ("text", Some(ReplaceQuote(e.rendered))),
      ("channel", channel),
      ("color", LevelColor(e.level)) ]
  }

  /** makeSendText: the JSON object sent for one event. */
  function MakeSendText(channel: Option<string>, e: Event): string
  {
    ToJsonString(Some(SendFields(channel, e)))
  }

  lemma Join4(a: string, b: string, c: string, d: string)
    ensures Join([a, b, c, d], ',') == a + "," + b + "," + c + "," + d
  {
    assert [a, b, c, d][1..] == [b, c, d];
    assert [b, c, d][1..] == [c, d];
    assert [c, d][1..] == [d];
    assert Join([c, d], ',') == c + "," + d;
    assert Join([b, c, d], ',') == b + "," + (c + "," + d);
    assert Join([a, b, c, d], ',') == a + "," + (b + "," + (c + "," + d));
  }

  lemma QuotedField(k: string, v: Option<string>)
    ensures Field(k, v) == "\"" + k + "\":\"" + NullText(v) + "\""
  {
  }

  /** The wire shape of one event: the keys pretext, text, channel and color,
      in that order, the first two escaped, the channel written as it is and a
      level without colour written as null. */
  lemma SendTextShape(channel: Option<string>, e: Event)
    ensures MakeSendText(channel, e) ==
      "{" + "\"pretext\":\"" + Escape(Pretext(e)) + "\""
      + "," + "\"text\":\"" + ReplaceQuote(e.rendered) + "\""
      + "," + "\"channel\":\"" + NullText(channel) + "\""
      + "," + "\"color\":\"" + NullText(LevelColor(e.level)) + "\"" + "}"
  {
    var p, t, c, k := Escape(Pretext(e)), ReplaceQuote(e.rendered), NullText(channel), NullText(LevelColor(e.level));
    var f0, f1, f2, f3 := "\"pretext\":\"" + p + "\"", "\"text\":\"" + t + "\"", "\"channel\":\"" + c + "\"", "\"color\":\"" + k + "\"";
    SendFieldsWritten(channel, e);
    Join4(f0, f1, f2, f3);
    assert MakeSendText(channel, e) == "{" + (f0 + "," + f1 + "," + f2 + "," + f3) + "}";
    Assemble(p, t, c, k);
  }

  lemma SendFieldsWritten(channel: Option<string>, e: Event)
    ensures Fields(SendFields(channel, e)) ==
      [ "\"pretext\":\"" + Escape(Pretext(e)) + "\"",
        "\"text\":\"" + ReplaceQuote(e.rendered) + "\"",
        "\"channel\":\"" + NullText(channel) + "\"",
        "\"color\":\"" + NullText(LevelColor(e.level)) + "\"" ]
  {
    ReplaceQuoteSome(Pretext(e));
    FourFields(Escape(Pretext(e)), ReplaceQuote(e.rendered), channel, LevelColor(e.level));
  }

  lemma ReplaceQuoteSome(x: string)
    ensures ReplaceQuote(Some(x)) == Escape(x)
  {
  }

  lemma FourFields(p: string, t: string, c: Option<string>, k: Option<string>)
    ensures Fields([("pretext", Some(p)), ("text", Some(t)), ("channel", c), ("color", k)]) ==
      [ "\"pretext\":\"" + p + "\"",
        "\"text\":\"" + t + "\"",
        "\"channel\":\"" + NullText(c) + "\"",
        "\"color\":\"" + NullText(k) + "\"" ]
  {
    QuotedField("pretext", Some(p));
    QuotedField("text", Some(t));
    QuotedField("channel", c);
    QuotedField("color", k);
    KeyLiterals();
  }

  /** KeyLiterals and Assemble only regroup string literals; they are stated
      apart to keep the cost of the proofs that use them down. */
  lemma KeyLiterals()
    ensures "\"" + "pretext" + "\":\"" == "\"pretext\":\""
    ensures "\"" + "text" + "\":\"" == "\"text\":\""
    ensures "\"" + "channel" + "\":\"" == "\"channel\":\""
    ensures "\"" + "color" + "\":\"" == "\"color\":\""
  {
  }

  lemma Assemble(p: string, t: string, c: string, k: string)
    ensures "{" + (("\"pretext\":\"" + p + "\"") + "," + ("\"text\":\"" + t + "\"") + ","
                   + ("\"channel\":\"" + c + "\"") + "," + ("\"color\":\"" + k + "\"")) + "}"
         == "{" + "\"pretext\":\"" + p + "\"" + "," + "\"text\":\"" + t + "\"" + ","
            + "\"channel\":\"" + c + "\"" + "," + "\"color\":\"" + k + "\"" + "}"
  {
  }

  /** The pretext of an event is written as "[LEVEL] message"; reading the
      pretext field back and unescaping it gives exactly that text, and the
      same holds for the rendered text; a null rendering is read back as "". */
  lemma SendTextRecoversPretext(channel: Option<string>, e: Event)
    ensures
      var es := SendFields(channel, e);
      var parsed := ParseJsonString(MakeSendText(channel, e), KeyLengths(es), ValueLengths(es));
      && parsed.Some?
      && |parsed.value| == 4
      && parsed.value[0].0 == "pretext" && Unescape(parsed.value[0].1) == "[" + e.level.LevelStr() + "] " + NullText(e.message)
      && parsed.value[1].0 == "text" && (e.rendered.Some? ==> Unescape(parsed.value[1].1) == e.rendered.value)
      && (e.rendered.None? ==> parsed.value[1].1 == "")
      && parsed.value[2] == ("channel", NullText(channel))
      && parsed.value[3] == ("color", NullText(LevelColor(e.level)))
  {
    var es := SendFields(channel, e);
    JsonStringRoundTrip(es);
    SendEntriesRead(channel, e);
  }

  /** What the four rendered entries of makeSendText say, read one by one. */
  lemma SendEntriesRead(channel: Option<string>, e: Event)
    ensures var r := Rendered(SendFields(channel, e));
      && |r| == 4
      && r[0].0 == "pretext" && Unescape(r[0].1) == "[" + e.level.LevelStr() + "] " + NullText(e.message)
      && r[1].0 == "text" && (e.rendered.Some? ==> Unescape(r[1].1) == e.rendered.value)
      && (e.rendered.None? ==> r[1].1 == "")
      && r[2] == ("channel", NullText(channel))
      && r[3] == ("color", NullText(LevelColor(e.level)))
  {
    var r := Rendered(SendFields(channel, e));
    RenderedSendFields(channel, e);
    assert r[0] == ("pretext", Escape(Pretext(e)));
    UnescapeEscape(Pretext(e));
    assert r[1] == ("text", ReplaceQuote(e.rendered));
  }

  /** The entries makeSendText writes, with their values as written. */
  lemma RenderedSendFields(channel: Option<string>, e: Event)
    ensures Rendered(SendFields(channel, e)) ==
      [("pretext", Escape(Pretext(e))), ("text", ReplaceQuote(e.rendered)),
       ("channel", NullText(channel)), ("color", NullText(LevelColor(e.level)))]
  {
    ReplaceQuoteSome(Pretext(e));
    RenderedFour("pretext", Some(ReplaceQuote(Some(Pretext(e)))), "text", Some(ReplaceQuote(e.rendered)),
      "channel", channel, "color", LevelColor(e.level));
  }

  lemma RenderedFour(k0: string, v0: Option<string>, k1: string, v1: Option<string>,
                     k2: string, v2: Option<string>, k3: string, v3: Option<string>)
    ensures Rendered([(k0, v0), (k1, v1), (k2, v2), (k3, v3)]) ==
      [(k0, NullText(v0)), (k1, NullText(v1)), (k2, NullText(v2)), (k3, NullText(v3))]
  {
    var r := Rendered([(k0, v0), (k1, v1), (k2, v2), (k3, v3)]);
    assert |r| == 4;
    assert r[0] == (k0, NullText(v0)) && r[1] == (k1, NullText(v1));
    assert r[2] == (k2, NullText(v2)) && r[3] == (k3, NullText(v3));
  }
}

=== FILE: model.dfy ===
/** The data the Slack appender works on: logback levels, logging events, the
    appender's configuration and its dispatch state. */
module Model {
  import opened Base

  /** Milliseconds that must pass between two dispatches (SEND_INTERVAL). */
  const SendInterval: int := 5000

  /** Largest number of events in one batched POST (MAX_SEND_SIZE). */
  const MaxSendSize: nat := 30

  /** Logback's levels. Each carries logback's integer value, which is what
      the threshold comparison uses, and its printed name. */
  datatype Level = All | Trace | Debug | Info | Warn | Error | Off
  {
    function LevelInt(): int
    {
      match this
      case All => -2147483648
      case Trace => 5000
      case Debug => 10000
      case Info => 20000
      case Warn => 30000
      case Error => 40000
      case Off => 2147483647
    }

    function LevelStr(): string
    {
      match this
      case All => "ALL"
      case Trace => "TRACE"
      case Debug => "DEBUG"
      case Info => "INFO"
      case Warn => "WARN"
      case Error => "ERROR"
      case Off => "OFF"
    }

    predicate IsGreaterOrEqual(other: Level)
    {
      LevelInt() >= other.LevelInt()
    }
  }

  /** The colour table that start() fills (setLevelColor). Levels without an
      entry (ALL and OFF) map to null. */
  function LevelColor(l: Level): Option<string>
  {
    match l
    case Trace => Some("#8C8C8C")
    case Debug => Some("#B2EBF4")
    case Info => Some("#0100FF")
    case Warn => Some("#FF5E00")
    case Error => Some("#FF0000")
    case _ => None
  }

  /** Exactly the five printable severities have a colour, each a distinct
      "#RRGGBB" code. */
  lemma ColorTable(l: Level, m: Level)
    ensures LevelColor(l).Some? <==> l != All && l != Off
    ensures LevelColor(l).Some? ==> |LevelColor(l).value| == 7 && LevelColor(l).value[0] == '#'
    ensures LevelColor(l).Some? ==> forall i :: 1 <= i < 7 ==> LevelColor(l).value[i] in "0123456789ABCDEF"
    ensures LevelColor(l).Some? && LevelColor(l) == LevelColor(m) ==> l == m
  {
  }

  /** A logging event as the appender sees it: its level, its message
      (getMessage, possibly null) and the text the configured layout renders
      for it (doLayout, possibly null). */
  datatype Event = Event(level: Level, message: Option<string>, rendered: Option<string>)

  /** The layout object itself is foreign; only whether one is configured
      matters to the appender, so it carries nothing here. */
  datatype Layout = Layout

  /** The four required settings; any may be left unset (null). */
  datatype Config = Config(
    webhookUrl: Option<string>,
    channel: Option<string>,
    notiLevel: Option<Level>,
    layout: Option<Layout>)

  /** The dispatch state: LAST_SENT_TIMESTAMP (0 means never sent),
      LINKED_QUE and IS_SEC_THREAD_RUN. */
  datatype State = State(lastSent: int, queue: seq<Event>, drainerActive: bool)

  /** One appender: its configuration, whether start() accepted it, and its
      dispatch state. */
  datatype Appender = Appender(config: Config, started: bool, state: State)

  /** The state of a freshly constructed appender. */
  const InitialState: State := State(0, [], false)
}

=== FILE: relay.dfy ===
/** The appender as a whole, with its threads reduced to atomic steps: calls
    to append() and wake-ups of the drainer thread, interleaved in any
    order. What leaves the process is recorded as a list of posts. */
module Relay {
  import opened Base
  import opened Model
  import opened Encoder
  import opened Dispatch
  import opened Drainer

  /** One POST request made: a single event (SenderRunner) or a batch
      (MultiSenderRunner). A batch whose request failed is not delivered;
      its events were already polled off the queue, so they are dropped. */
  datatype Post = Single(event: Event) | Batch(events: seq<Event>, delivered: bool)

  /** makeSendText with the appender's channel. */
  function SendText(channel: Option<string>): Event -> string
  {
    e => MakeSendText(channel, e)
  }

  /** The body of a post on the wire. */
  function Render(channel: Option<string>, p: Post): string
  {
    match p
    case Single(e) => SendText(channel)(e)
    case Batch(es, _) => BatchPayload(SendText(channel), es)
  }

  /** The appender, the number of drainer threads alive, every post made so
      far in order, and every event that ever took the deferred path, in
      order (a record kept for stating properties). */
  datatype World = World(app: Appender, drainers: nat, wire: seq<Post>, deferred: seq<Event>)

  /** Something that can happen next: append() is called; the drainer
      thread wakes from its sleep and runs to its end, failAt being the index
      of its first failing POST, if any; the drainer's first sleep is
      interrupted, which ends its run before it looks at the queue; or the
      drainer runs with every POST succeeding until the 500 ms pause after
      POST `after` is interrupted (a pause that exists only after a full
      batch, so when chunk `after` is the last and partial the run simply
      completes). */
  datatype Input =
    | Receive(event: Event, now: int)
    | DrainerWakes(failAt: Option<nat>)
    | DrainerInterrupted
    | DrainerPauseInterrupted(after: nat)

  function Init(c: Config): World
  {
    World(Start(c), 0, [], [])
  }

  predicate Deferred(a: Appender, e: Event, now: int)
  {
    a.started && Accepts(a.config, e.level) && !SendsImmediately(a.state.lastSent, now)
  }

  /** The posts of one drainer run: every batch it attempted, each delivered
      unless it is the POST with index failAt. */
  function BatchPosts(batches: seq<seq<Event>>, failAt: Option<nat>): (r: seq<Post>)
    ensures |r| == |batches|
    ensures forall i :: 0 <= i < |batches| ==> r[i] == Batch(batches[i], failAt != Some(i))
  {
    seq(|batches|, i requires 0 <= i < |batches| => Batch(batches[i], failAt != Some(i)))
  }

  function Next(w: World, i: Input): (w': World)
    ensures w'.app.config == w.app.config && w'.app.started == w.app.started
    // the drainer never moves the timestamp; only accepted events do
    ensures !i.Receive? ==> w'.app.state.lastSent == w.app.state.lastSent
    ensures i.Receive? && !(w.app.started && Accepts(w.app.config, i.event.level)) ==> w' == w
    // a drainer that ran leaves the flag cleared, whichever way its run ended
    ensures !i.Receive? && w.drainers > 0 ==> !w'.app.state.drainerActive
    // an interrupted first sleep posts nothing and leaves the queue alone
    ensures i.DrainerInterrupted? ==> w'.wire == w.wire && w'.app.state.queue == w.app.state.queue
    // posts are only ever added at the end
    ensures |w.wire| <= |w'.wire| && w'.wire[..|w.wire|] == w.wire
  {
    match i
    case Receive(e, now) =>
      var step := Append(w.app, e, now);
      World(
        w.app.(state := step.state),
        w.drainers + (if step.action == LaunchDrainer then 1 else 0),
        w.wire + (if step.action.SendSingle? then [Single(e)] else []),
        w.deferred + (if Deferred(w.app, e, now) then [e] else []))
    case DrainerWakes(failAt) =>
      if w.drainers == 0 then w
      else
        var d := Drain(w.app.state, failAt);
        World(w.app.(state := d.state), w.drainers - 1, w.wire + BatchPosts(d.batches, failAt), w.deferred)
    case DrainerInterrupted =>
      if w.drainers == 0 then w
      else World(w.app.(state := w.app.state.(drainerActive := false)), w.drainers - 1, w.wire, w.deferred)
    case DrainerPauseInterrupted(after) =>
      if w.drainers == 0 then w
      else
        // the run stops where a failure of POST `after` would stop it, but
        // that POST went through
        var d := Drain(w.app.state, Some(after));
        World(w.app.(state := d.state), w.drainers - 1, w.wire + BatchPosts(d.batches, None), w.deferred)
  }

  function RunAll(w: World, inputs: seq<Input>): World
    decreases |inputs|
  {
    if |inputs| == 0 then w else RunAll(Next(w, inputs[0]), inputs[1..])
  }

  /** The events of all batch posts attempted, delivered or not, in posting
      order. */
  function BatchedEvents(wire: seq<Post>): seq<Event>
  {
    if |wire| == 0 then []
    else (if wire[0].Batch? then wire[0].events else []) + BatchedEvents(wire[1..])
  }

  lemma {:induction false} BatchedEventsAppend(a: seq<Post>, b: seq<Post>)
    ensures BatchedEvents(a + b) == BatchedEvents(a) + BatchedEvents(b)
  {
    if |a| > 0 {
      assert (a + b)[1..] == a[1..] + b;
      BatchedEventsAppend(a[1..], b);
    } else {
      assert a + b == b;
    }
  }

  lemma {:induction false} BatchedEventsOfBatches(batches: seq<seq<Event>>, failAt: Option<nat>)
    ensures BatchedEvents(BatchPosts(batches, failAt)) == Flatten(batches)
    decreases |batches|
  {
    if |batches| > 0 {
      var shifted := match failAt case None => None case Some(k) => if k == 0 then None else Some(k - 1);
      assert BatchPosts(batches, failAt)[1..] == BatchPosts(batches[1..], shifted);
      BatchedEventsOfBatches(batches[1..], shifted);
    }
  }

  /** The two invariants of the dispatch state: a drainer thread is alive
      exactly when the flag says so (so never more than one), and every
      event that took the deferred path is in exactly one attempted batch
      POST, in arrival order, or is still waiting in the queue. An attempted
      POST may have failed: its events are then dropped, not requeued. */
  predicate Inv(w: World)
  {
    && w.drainers == (if w.app.state.drainerActive then 1 else 0)
    && w.deferred == BatchedEvents(w.wire) + w.app.state.queue
  }

  lemma InitInv(c: Config)
    ensures Inv(Init(c))
  {
  }

  lemma NextKeepsInv(w: World, i: Input)
    requires Inv(w)
    ensures Inv(Next(w, i))
  {
    match i
    case Receive(e, now) => ReceiveKeepsInv(w, e, now);
    case DrainerWakes(failAt) => WakeKeepsInv(w, failAt);
    case DrainerInterrupted => InterruptKeepsInv(w);
    case DrainerPauseInterrupted(after) => PauseKeepsInv(w, after);
  }

  /** A call to append() sends the event on its own, queues it (launching a
      drainer only when none is alive), or drops it. */
  lemma ReceiveKeepsInv(w: World, e: Event, now: int)
    requires Inv(w)
    ensures Inv(Next(w, Receive(e, now)))
  {
    var a := w.app;
    if !(a.started && Accepts(a.config, e.level)) {
      assert Next(w, Receive(e, now)) == w;
    } else if SendsImmediately(a.state.lastSent, now) {
      SendKeepsInv(w, e, now);
    } else {
      DeferKeepsInv(w, e, now);
    }
  }

  /** The immediate path adds a single post, which carries no batched event. */
  lemma SendKeepsInv(w: World, e: Event, now: int)
    requires Inv(w) && w.app.started && Accepts(w.app.config, e.level)
    requires SendsImmediately(w.app.state.lastSent, now)
    ensures Inv(Next(w, Receive(e, now)))
  {
    var w' := Next(w, Receive(e, now));
    assert !Deferred(w.app, e, now);
    assert w' == World(w.app.(state := w.app.state.(lastSent := now)), w.drainers, w.wire + [Single(e)], w.deferred);
    SingleCarriesNoBatch(w.wire, e);
  }

  lemma SingleCarriesNoBatch(wire: seq<Post>, e: Event)
    ensures BatchedEvents(wire + [Single(e)]) == BatchedEvents(wire)
  {
    BatchedEventsAppend(wire, [Single(e)]);
    assert BatchedEvents([Single(e)]) == [];
    assert BatchedEvents(wire) + [] == BatchedEvents(wire);
  }

  /** The deferred path appends the event to both the queue and the record. */
  lemma DeferKeepsInv(w: World, e: Event, now: int)
    requires Inv(w) && Deferred(w.app, e, now)
    ensures Inv(Next(w, Receive(e, now)))
  {
    var w' := Next(w, Receive(e, now));
    var q := w.app.state.queue;
    assert w'.wire == w.wire;
    assert w'.app.state.queue == q + [e];
    assert w'.deferred == w.deferred + [e];
    assert w'.drainers == w.drainers + (if w.app.state.drainerActive then 0 else 1);
    assert w'.app.state.drainerActive;
    Associate3(BatchedEvents(w.wire), q, [e]);
    assert w'.deferred == BatchedEvents(w'.wire) + w'.app.state.queue;
  }

  /** A drainer run moves the batches it posts from the queue to the wire. */
  lemma WakeKeepsInv(w: World, failAt: Option<nat>)
    requires Inv(w)
    ensures Inv(Next(w, DrainerWakes(failAt)))
  {
    if w.drainers > 0 {
      var d := Drain(w.app.state, failAt);
      BatchedEventsAppend(w.wire, BatchPosts(d.batches, failAt));
      BatchedEventsOfBatches(d.batches, failAt);
      Associate3(BatchedEvents(w.wire), Flatten(d.batches), d.state.queue);
    }
  }

  /** A drainer run adds batch posts only, and only the one whose index is
      the failing POST's is undelivered. */
  lemma WakeMarksOnlyFailure(w: World, failAt: Option<nat>)
    requires w.drainers > 0
    ensures var w' := Next(w, DrainerWakes(failAt));
      forall j :: |w.wire| <= j < |w'.wire| ==>
        w'.wire[j].Batch? && (w'.wire[j].delivered <==> failAt != Some(j - |w.wire|))
  {
    var d := Drain(w.app.state, failAt);
    var posts := BatchPosts(d.batches, failAt);
    var w' := World(w.app.(state := d.state), w.drainers - 1, w.wire + posts, w.deferred);
    assert Next(w, DrainerWakes(failAt)) == w';
    forall j | |w.wire| <= j < |w'.wire|
      ensures w'.wire[j] == Batch(d.batches[j - |w.wire|], failAt != Some(j - |w.wire|))
    {
      assert w'.wire[j] == posts[j - |w.wire|];
    }
  }

  /** A drainer run whose POST k fails, k being within the batches the queue
      holds: k + 1 batches are attempted, all but the last delivered; the
      last is the queue's chunk k, and the queue keeps only the chunks after
      it, so the events of that chunk are dropped. */
  lemma FailedBatchDropped(w: World, k: nat)
    requires w.drainers > 0 && k < |Chunks(w.app.state.queue)|
    ensures Next(w, DrainerWakes(Some(k))).wire == w.wire + BatchPosts(Chunks(w.app.state.queue)[..k + 1], Some(k))
    ensures var wire := Next(w, DrainerWakes(Some(k))).wire;
      |wire| == |w.wire| + k + 1 && wire[|wire| - 1] == Batch(Chunks(w.app.state.queue)[k], false)
    ensures forall j :: |w.wire| <= j < |w.wire| + k ==> Next(w, DrainerWakes(Some(k))).wire[j].delivered
    ensures Next(w, DrainerWakes(Some(k))).app.state.queue == Flatten(Chunks(w.app.state.queue)[k + 1..])
  {
    var q := w.app.state.queue;
    WakeWorld(w, Some(k));
    FailingDrain(w.app.state, k);
    WakeMarksOnlyFailure(w, Some(k));
    assert BatchPosts(Chunks(q)[..k + 1], Some(k))[k] == Batch(Chunks(q)[k], false);
  }

  /** The world a drainer wake-up leaves. */
  lemma WakeWorld(w: World, failAt: Option<nat>)
    requires w.drainers > 0
    ensures Next(w, DrainerWakes(failAt)) ==
      World(w.app.(state := Drain(w.app.state, failAt).state), w.drainers - 1,
            w.wire + BatchPosts(Drain(w.app.state, failAt).batches, failAt), w.deferred)
  {
  }

  /** What Drain attempts and leaves when its POST k fails within the queue. */
  lemma FailingDrain(s: State, k: nat)
    requires k < |Chunks(s.queue)|
    ensures Drain(s, Some(k)).batches == Chunks(s.queue)[..k + 1]
    ensures Drain(s, Some(k)).state.queue == Flatten(Chunks(s.queue)[k + 1..])
  {
    var d := Drain(s, Some(k));
    assert |d.batches| == k + 1;
  }

  /** A drainer stopped in a pause moves the batches it posted from the
      queue to the wire, exactly as a completed or failed run does. */
  lemma PauseKeepsInv(w: World, after: nat)
    requires Inv(w)
    ensures Inv(Next(w, DrainerPauseInterrupted(after)))
  {
    if w.drainers > 0 {
      var d := Drain(w.app.state, Some(after));
      BatchedEventsAppend(w.wire, BatchPosts(d.batches, None));
      BatchedEventsOfBatches(d.batches, None);
      Associate3(BatchedEvents(w.wire), Flatten(d.batches), d.state.queue);
    }
  }

  /** The pause after POST k (k within the batches the queue holds) being
      interrupted: the first k + 1 batches are on the wire, all delivered,
      and the queue keeps exactly the chunks after them. */
  lemma PauseDelivers(w: World, k: nat)
    requires w.drainers > 0 && k < |Chunks(w.app.state.queue)|
    ensures Next(w, DrainerPauseInterrupted(k)).wire == w.wire + BatchPosts(Chunks(w.app.state.queue)[..k + 1], None)
    ensures forall j :: |w.wire| <= j < |Next(w, DrainerPauseInterrupted(k)).wire| ==>
      Next(w, DrainerPauseInterrupted(k)).wire[j].Batch? && Next(w, DrainerPauseInterrupted(k)).wire[j].delivered
    ensures Next(w, DrainerPauseInterrupted(k)).app.state.queue == Flatten(Chunks(w.app.state.queue)[k + 1..])
    ensures !Next(w, DrainerPauseInterrupted(k)).app.state.drainerActive
  {
    var q := w.app.state.queue;
    PauseWorld(w, k);
    FailingDrain(w.app.state, k);
    var posts := BatchPosts(Chunks(q)[..k + 1], None);
    forall j | |w.wire| <= j < |w.wire| + |posts|
      ensures (w.wire + posts)[j] == posts[j - |w.wire|]
    {
    }
  }

  /** The world an interrupted pause leaves. */
  lemma PauseWorld(w: World, after: nat)
    requires w.drainers > 0
    ensures Next(w, DrainerPauseInterrupted(after)) ==
      World(w.app.(state := Drain(w.app.state, Some(after)).state), w.drainers - 1,
            w.wire + BatchPosts(Drain(w.app.state, Some(after)).batches, None), w.deferred)
  {
  }

  /** An interrupted drainer ends without touching the queue, and its
      thread is gone along with the flag. */
  lemma InterruptKeepsInv(w: World)
    requires Inv(w)
    ensures Inv(Next(w, DrainerInterrupted))
  {
    if w.drainers > 0 {
      assert Next(w, DrainerInterrupted).wire == w.wire;
    }
  }

  /** The bodies of a list of posts, in order. */
  function Bodies(channel: Option<string>, posts: seq<Post>): (r: seq<string>)
    ensures |r| == |posts|
    ensures forall i :: 0 <= i < |posts| ==> r[i] == Render(channel, posts[i])
  {
    seq(|posts|, i requires 0 <= i < |posts| => Render(channel, posts[i]))
  }

  /** The drainer loop as written, run on the appender's state when its
      thread wakes: the bodies it POSTs are exactly the rendered posts the
      step adds to the wire, and it leaves the state the step leaves. */
  method DrainerRun(w: World, failAt: Option<nat>) returns (bodies: seq<string>, s': State)
    requires w.drainers > 0
    ensures var w' := Next(w, DrainerWakes(failAt));
      && bodies == Bodies(w.app.config.channel, w'.wire[|w.wire|..])
      && s' == w'.app.state
  {
    bodies, s' := RunDrainer(SendText(w.app.config.channel), w.app.state, failAt);
    WakeBodies(w, failAt);
    var w' := Next(w, DrainerWakes(failAt));
    assert bodies == Bodies(w.app.config.channel, w'.wire[|w.wire|..]);
    assert s' == w'.app.state;
  }

  /** The payloads of a wake-up's batches are the rendered posts it adds. */
  lemma WakeBodies(w: World, failAt: Option<nat>)
    requires w.drainers > 0
    ensures Payloads(SendText(w.app.config.channel), Drain(w.app.state, failAt).batches) ==
      Bodies(w.app.config.channel, Next(w, DrainerWakes(failAt)).wire[|w.wire|..])
    ensures Next(w, DrainerWakes(failAt)).app.state == Drain(w.app.state, failAt).state
  {
    var d := Drain(w.app.state, failAt);
    var w' := World(w.app.(state := d.state), w.drainers - 1, w.wire + BatchPosts(d.batches, failAt), w.deferred);
    assert Next(w, DrainerWakes(failAt)) == w';
    assert w'.wire[|w.wire|..] == BatchPosts(d.batches, failAt);
    BodiesOfBatches(w.app.config.channel, d.batches, failAt);
  }

  /** Rendering batch posts gives the drainer's payloads for those batches. */
  lemma BodiesOfBatches(channel: Option<string>, batches: seq<seq<Event>>, failAt: Option<nat>)
    ensures Bodies(channel, BatchPosts(batches, failAt)) == Payloads(SendText(channel), batches)
  {
    var r := Bodies(channel, BatchPosts(batches, failAt));
    forall i | 0 <= i < |batches|
      ensures r[i] == Payloads(SendText(channel), batches)[i]
    {
      assert BatchPosts(batches, failAt)[i] == Batch(batches[i], failAt != Some(i));
    }
  }

  /** From any state that satisfies the invariants, any interleaving of
      calls and drainer runs keeps them: at most one drainer thread is ever
      alive, and every deferred event is attempted in exactly one batch POST,
      in arrival order, or is still queued, as long as rendering an event
      does not throw (the layout is foreign, so in the model it never does).
      The events of a failed POST are dropped; see FailedBatchDropped. */
  lemma {:induction false} RunKeepsInv(w: World, inputs: seq<Input>)
    requires Inv(w)
    ensures Inv(RunAll(w, inputs))
    ensures RunAll(w, inputs).drainers <= 1
    decreases |inputs|
  {
    if |inputs| > 0 {
      NextKeepsInv(w, inputs[0]);
      RunKeepsInv(Next(w, inputs[0]), inputs[1..]);
    }
  }

  /** Whatever happens after start(), the invariants hold (rendering an
      event never throws in the model). */
  lemma FromStart(c: Config, inputs: seq<Input>)
    ensures Inv(RunAll(Init(c), inputs))
    ensures RunAll(Init(c), inputs).drainers <= 1
  {
    InitInv(c);
    RunKeepsInv(Init(c), inputs);
  }

  /** The immediate path of append(): one single post, the timestamp moves
      to now, and nothing else changes. */
  lemma SendsAlone(w: World, e: Event, now: int)
    requires w.app.started && Accepts(w.app.config, e.level) && SendsImmediately(w.app.state.lastSent, now)
    ensures Next(w, Receive(e, now)) ==
      World(w.app.(state := w.app.state.(lastSent := now)), w.drainers, w.wire + [Single(e)], w.deferred)
  {
    assert !Deferred(w.app, e, now);
    assert w.deferred + [] == w.deferred;
  }

  /** The deferred path with no drainer alive: the event is queued and
      recorded, the flag is set and one drainer thread is started. */
  lemma QueuesAndLaunches(w: World, e: Event, now: int)
    requires w.app.started && Accepts(w.app.config, e.level) && !SendsImmediately(w.app.state.lastSent, now)
    requires !w.app.state.drainerActive
    ensures Next(w, Receive(e, now)) ==
      World(w.app.(state := State(now, w.app.state.queue + [e], true)), w.drainers + 1, w.wire, w.deferred + [e])
  {
    assert w.wire + [] == w.wire;
  }

  /** A drainer that finds at most one batch's worth of events and no
      failing POST posts them all in one batch and leaves the queue empty. */
  lemma DrainsOneBatch(w: World)
    requires w.drainers > 0 && 0 < |w.app.state.queue| <= MaxSendSize
    ensures Next(w, DrainerWakes(None)) ==
      World(w.app.(state := w.app.state.(queue := [], drainerActive := false)), w.drainers - 1,
            w.wire + [Batch(w.app.state.queue, true)], w.deferred)
  {
    var q := w.app.state.queue;
    var d := Drain(w.app.state, None);
    assert Chunks(q) == [q];
    assert d.batches == [q];
    assert BatchPosts(d.batches, None) == [Batch(q, true)];
  }

  // ---------------------------------------------------------------------
  // A worked scenario: a complete configuration, events a, b and d that
  // pass its threshold and c that does not (threshold WARN with a WARN,
  // b ERROR, c INFO and d WARN, say)
  // ---------------------------------------------------------------------

  /** Starting at clock t (not 0): a goes out on its own; b, 100 ms later,
      is queued and launches the drainer, which posts it as a batch of one;
      c is filtered out; d, at t + 6200, is compared with the timestamp b
      left (t + 100, the drainer does not move it) and goes out on its own. */
  lemma ScenarioFromNonZeroClock(cfg: Config, a: Event, b: Event, c: Event, d: Event, t: int)
    requires Complete(cfg)
    requires Accepts(cfg, a.level) && Accepts(cfg, b.level) && !Accepts(cfg, c.level) && Accepts(cfg, d.level)
    requires t > 0
    ensures
      var w := RunAll(Init(cfg),
        [Receive(a, t), Receive(b, t + 100), DrainerWakes(None), Receive(c, t + 6000), Receive(d, t + 6200)]);
      && w.wire == [Single(a), Batch([b], true), Single(d)]
      && w.app.state == State(t + 6200, [], false)
      && w.drainers == 0
  {
    NonZeroClockRun(Init(cfg).app, a, b, c, d, t);
  }

  /** The run behind ScenarioFromNonZeroClock, from any started appender in
      its initial state. */
  lemma NonZeroClockRun(app: Appender, a: Event, b: Event, c: Event, d: Event, t: int)
    requires app.started && app.state == State(0, [], false)
    requires Accepts(app.config, a.level) && Accepts(app.config, b.level)
    requires !Accepts(app.config, c.level) && Accepts(app.config, d.level)
    requires t > 0
    ensures
      var w := RunAll(World(app, 0, [], []),
        [Receive(a, t), Receive(b, t + 100), DrainerWakes(None), Receive(c, t + 6000), Receive(d, t + 6200)]);
      && w.wire == [Single(a), Batch([b], true), Single(d)]
      && w.app.state == State(t + 6200, [], false)
      && w.drainers == 0
  {
    var w0 := World(app, 0, [], []);
    var w1 := World(app.(state := State(t, [], false)), 0, [Single(a)], []);
    var w2 := World(app.(state := State(t + 100, [b], true)), 1, [Single(a)], [b]);
    var w3 := World(app.(state := State(t + 100, [], false)), 0, [Single(a), Batch([b], true)], [b]);
    var w5 := World(app.(state := State(t + 6200, [], false)), 0, [Single(a), Batch([b], true), Single(d)], [b]);
    FirstSentAlone(app, a, t);
    SecondQueued(app, a, b, t);
    BatchOfOne(app, a, b, t);
    assert Next(w3, Receive(c, t + 6000)) == w3;
    LastSentAlone(app, a, b, d, t);
    RunFive(w0, Receive(a, t), Receive(b, t + 100), DrainerWakes(None), Receive(c, t + 6000), Receive(d, t + 6200));
  }

  /** The first accepted event from the initial state goes out on its own. */
  lemma FirstSentAlone(app: Appender, a: Event, t: int)
    requires app.started && app.state == State(0, [], false) && Accepts(app.config, a.level)
    ensures Next(World(app, 0, [], []), Receive(a, t)) == World(app.(state := State(t, [], false)), 0, [Single(a)], [])
  {
    SendsAlone(World(app, 0, [], []), a, t);
    assert [] + [Single(a)] == [Single(a)];
  }

  lemma SecondQueued(app: Appender, a: Event, b: Event, t: int)
    requires app.started && Accepts(app.config, b.level) && t > 0
    ensures Next(World(app.(state := State(t, [], false)), 0, [Single(a)], []), Receive(b, t + 100)) ==
      World(app.(state := State(t + 100, [b], true)), 1, [Single(a)], [b])
  {
    QueuesAndLaunches(World(app.(state := State(t, [], false)), 0, [Single(a)], []), b, t + 100);
    assert [] + [b] == [b];
  }

  lemma BatchOfOne(app: Appender, a: Event, b: Event, t: int)
    ensures Next(World(app.(state := State(t + 100, [b], true)), 1, [Single(a)], [b]), DrainerWakes(None)) ==
      World(app.(state := State(t + 100, [], false)), 0, [Single(a), Batch([b], true)], [b])
  {
    DrainsOneBatch(World(app.(state := State(t + 100, [b], true)), 1, [Single(a)], [b]));
    assert [Single(a)] + [Batch([b], true)] == [Single(a), Batch([b], true)];
  }

  lemma LastSentAlone(app: Appender, a: Event, b: Event, d: Event, t: int)
    requires app.started && Accepts(app.config, d.level) && t > 0
    ensures Next(World(app.(state := State(t + 100, [], false)), 0, [Single(a), Batch([b], true)], [b]), Receive(d, t + 6200)) ==
      World(app.(state := State(t + 6200, [], false)), 0, [Single(a), Batch([b], true), Single(d)], [b])
  {
    SendsAlone(World(app.(state := State(t + 100, [], false)), 0, [Single(a), Batch([b], true)], [b]), d, t + 6200);
    assert [Single(a), Batch([b], true)] + [Single(d)] == [Single(a), Batch([b], true), Single(d)];
  }

  // RunFive down to RunTwo unroll RunAll one length at a time, so that no
  // scenario proof has to unfold it on a literal list of inputs itself.

  /** A run of five inputs is five steps. */
  lemma RunFive(w: World, i0: Input, i1: Input, i2: Input, i3: Input, i4: Input)
    ensures RunAll(w, [i0, i1, i2, i3, i4]) == Next(Next(Next(Next(Next(w, i0), i1), i2), i3), i4)
  {
    RunCons(w, i0, [i1, i2, i3, i4]);
    assert [i0] + [i1, i2, i3, i4] == [i0, i1, i2, i3, i4];
    RunFour(Next(w, i0), i1, i2, i3, i4);
  }

  /** A run of four inputs is four steps. */
  lemma RunFour(w: World, i0: Input, i1: Input, i2: Input, i3: Input)
    ensures RunAll(w, [i0, i1, i2, i3]) == Next(Next(Next(Next(w, i0), i1), i2), i3)
  {
    RunCons(w, i0, [i1, i2, i3]);
    assert [i0] + [i1, i2, i3] == [i0, i1, i2, i3];
    RunThree(Next(w, i0), i1, i2, i3);
  }

  lemma RunThree(w: World, i0: Input, i1: Input, i2: Input)
    ensures RunAll(w, [i0, i1, i2]) == Next(Next(Next(w, i0), i1), i2)
  {
    RunCons(w, i0, [i1, i2]);
    assert [i0] + [i1, i2] == [i0, i1, i2];
    RunTwo(Next(w, i0), i1, i2);
  }

  lemma RunTwo(w: World, i0: Input, i1: Input)
    ensures RunAll(w, [i0, i1]) == Next(Next(w, i0), i1)
  {
    RunCons(w, i0, [i1]);
    assert [i0] + [i1] == [i0, i1];
    RunCons(Next(w, i0), i1, []);
    assert [i1] + [] == [i1];
  }

  /** A run is its first step followed by the run of the rest. */
  lemma RunCons(w: World, i: Input, rest: seq<Input>)
    ensures RunAll(w, [i] + rest) == RunAll(Next(w, i), rest)
  {
    assert ([i] + rest)[1..] == rest;
  }

  /** The same arrivals with the clock starting at 0: a sets the timestamp
      to 0, which still reads as never sent, so b goes out on its own too
      and no drainer is ever launched. */
  lemma ScenarioFromZeroClock(cfg: Config, a: Event, b: Event, c: Event, d: Event)
    requires Complete(cfg)
    requires Accepts(cfg, a.level) && Accepts(cfg, b.level) && !Accepts(cfg, c.level) && Accepts(cfg, d.level)
    ensures
      var w := RunAll(Init(cfg), [Receive(a, 0), Receive(b, 100), Receive(c, 6000), Receive(d, 6200)]);
      && w.wire == [Single(a), Single(b), Single(d)]
      && w.drainers == 0
  {
    ZeroClockRun(Init(cfg).app, a, b, c, d);
  }

  /** The run behind ScenarioFromZeroClock, from any started appender in its
      initial state. */
  lemma ZeroClockRun(app: Appender, a: Event, b: Event, c: Event, d: Event)
    requires app.started && app.state == State(0, [], false)
    requires Accepts(app.config, a.level) && Accepts(app.config, b.level)
    requires !Accepts(app.config, c.level) && Accepts(app.config, d.level)
    ensures
      var w := RunAll(World(app, 0, [], []), [Receive(a, 0), Receive(b, 100), Receive(c, 6000), Receive(d, 6200)]);
      && w.wire == [Single(a), Single(b), Single(d)]
      && w.drainers == 0
  {
    var w0 := World(app, 0, [], []);
    var w2 := World(app.(state := State(100, [], false)), 0, [Single(a), Single(b)], []);
    FirstSentAlone(app, a, 0);
    SecondSentAlone(app, a, b);
    assert Next(w2, Receive(c, 6000)) == w2;
    ThirdSentAlone(app, a, b, d);
    RunFour(w0, Receive(a, 0), Receive(b, 100), Receive(c, 6000), Receive(d, 6200));
  }

  lemma SecondSentAlone(app: Appender, a: Event, b: Event)
    requires app.started && Accepts(app.config, b.level)
    ensures Next(World(app.(state := State(0, [], false)), 0, [Single(a)], []), Receive(b, 100)) ==
      World(app.(state := State(100, [], false)), 0, [Single(a), Single(b)], [])
  {
    SendsAlone(World(app.(state := State(0, [], false)), 0, [Single(a)], []), b, 100);
    assert [Single(a)] + [Single(b)] == [Single(a), Single(b)];
  }

  lemma ThirdSentAlone(app: Appender, a: Event, b: Event, d: Event)
    requires app.started && Accepts(app.config, d.level)
    ensures Next(World(app.(state := State(100, [], false)), 0, [Single(a), Single(b)], []), Receive(d, 6200)) ==
      World(app.(state := State(6200, [], false)), 0, [Single(a), Single(b), Single(d)], [])
  {
    SendsAlone(World(app.(state := State(100, [], false)), 0, [Single(a), Single(b)], []), d, 6200);
    assert [Single(a), Single(b)] + [Single(d)] == [Single(a), Single(b), Single(d)];
  }
}
